=== FILE: README.md ===
# Kitupiikki year-end depreciation, modelled in Dafny

Kitupiikki is a Finnish bookkeeping application. At the end of a financial period,
`Poistaja::sumupoistaja` builds the depreciation statement (*poistolaskelma*) and a
proposal of voucher lines. It looks at every account of the chart that is marked
depreciable (*poistettava*) and has a non-zero balance at the period end. It aborts
the whole run on the first such account whose contra-account (`Poistotili`) is not a
valid account. Each remaining account is handled by one of two rules:

- **declining balance** (*menojäännöspoisto*): a fixed percentage of the balance,
  rounded to the cent. When the account is kept by cost centre (`Kohdennukset`), the
  rule is applied separately to each cost centre's balance.
- **straight line** (*tasaeräpoisto*): each balance lot (*tase-erä*) with a
  non-negative original cost is brought down to the share of that cost its term in
  months has not yet used up. A lot with a negative original cost (a credit lot) is
  cleared to zero in its first month, because the cap on the allowance is one-sided
  (see below).

Every amount becomes one credit line on the account and one debit line of the same
amount on the contra-account. `Poistaja::onkoPoistoja` answers whether depreciable
accounts still carry anything to write off. The project also models `CheckCombo`, a
combo box of checkable items whose line edit lists the checked captions.

Modules:

- `Arith`:
  - C++ truncating `/` and `%`;
  - `std::round` of an exact quotient (halves away from zero);
  - 32-bit `int` wrap-around.
- `Decimal`: integer text as the rule column prints it, and its parser.
- `Ledger`:
  - dates;
  - posted lines;
  - the `GROUP BY kohdennus ORDER BY kohdennus` query of the cost-centre split.
- `Amounts`: the two depreciation rules as integer arithmetic on cents.
- `Report`: the statement rows and the text of the rule column.
- `Postings`:
  - proposed voucher lines;
  - the credit/debit pairs they are made of;
  - the flat list `EhdotusModel` collects.
- `Depreciation`: the run itself (`Run`), one account block at a time.
- `Pending`: `onkoPoistoja`.
- `CheckCombo`: `addItem`, `selectedDatas`, `updateText`, `onItemPressed`.
- `ComboText`: the line edit's text in closed form, for any checked captions.

The database and the collaborators become inputs:

- the chart of accounts, with each account's kind, rate, balance at the period end,
  contra-account number, and whether that number names a valid account;
- the account's posted lines, for the cost-centre split;
- the lot list, with each lot's originating line.

Where the code and what it evidently means to do part ways, the model follows the code:

- The straight-line cap (`if (laskennallinenPoisto > alkuSnt) laskennallinenPoisto = alkuSnt`)
  is one-sided, not a bound on magnitude. For a lot with a negative original cost, the
  pro-rata share within the term lies between the cost and 0. It is never below the
  cost (it is smaller in magnitude), so the `>` test fires at once and the whole cost is
  allowed from the first month (`Amounts.NegativeCostAllowance`). After
  the term the share passes the cost uncapped, as `Amounts.OneSidedCapOvershoots` shows.
  For every lot, the balance the lot is left at (`original - allowed`) is never negative.
- The cost-centre split reads lines dated strictly before the period end. The
  account's balance comes from `saldoPaivalle`, which is not part of this model. The
  model proves that the groups add up to the balance of the lines before the end
  (`Ledger.CentreGroupsPartition`). It does not relate them to the summary row's
  balance.
- The split rounds each cost centre on its own, and nothing reconciles the sum with
  the summary row (`Depreciation.SplitRoundingDrift`).
- Nothing in the code makes `onkoPoistoja` false after a run:
  - declining balance leaves a remainder;
  - the contra-account's debits are on an account of another type;
  - the check compares the sums after narrowing them to 32-bit `int`s
    (`Pending.NarrowingMasksImbalance`).

## Model

| member | source | states |
|---|---|---|
| `Arith.TruncDiv` | kitupiikki/arkisto/poistaja.cpp:236 | C++ `/`: the magnitude of the quotient is the floor of the quotient of the magnitudes, and its sign is the product of the signs (or it is 0) |
| `Arith.TruncDivIsFloor` | kitupiikki/arkisto/poistaja.cpp:236 | for a non-negative dividend and a positive divisor, truncating division coincides with floor division |
| `Arith.TruncDivUnique` | kitupiikki/arkisto/poistaja.cpp:236 | any value meeting `TruncDiv`'s contract is the truncated quotient, so the contract fully specifies C++ `/` |
| `Arith.TruncMod` | kitupiikki/arkisto/poistaja.cpp:247-248 | C++ `%`: `(n / d) * d + n % d == n`, the remainder is smaller than the divisor in magnitude, and it is 0 or has the dividend's sign |
| `Arith.RoundHalfAway` | kitupiikki/arkisto/poistaja.cpp:101 | `std::round` of `n / d`: the result is within half a unit of the exact quotient, with exact halves going away from zero |
| `Arith.RoundHalfAwayUnique` | kitupiikki/arkisto/poistaja.cpp:101 | exactly one integer rounds `n / d` halves-away, so `IsRoundHalfAway` is a complete reference definition of the rounding |
| `Arith.Wrap32` | kitupiikki/arkisto/poistaja.cpp:236 | a 32-bit `int` result lies in [-2^31, 2^31), is congruent to the exact value modulo 2^32, and equals it whenever the exact value fits |
| `Arith.Wrap32Same` | kitupiikki/arkisto/poistaja.cpp:336-337 | two values narrow to the same 32-bit `int` exactly when they differ by a multiple of 2^32 |
| `Decimal.ParseIntToString` | kitupiikki/arkisto/poistaja.cpp:247-250 | the decimal text of an integer, as `arg(int)` writes it into the rule column, parses back to the same integer |
| `Ledger.DatedBefore` | kitupiikki/arkisto/poistaja.cpp:120-122 | the `pvm < end` filter keeps exactly the lines dated strictly before the period end |
| `Ledger.DatedBeforeConcat` | kitupiikki/arkisto/poistaja.cpp:120-122 | the date filter works piece by piece: filtering a concatenation is concatenating the filtered pieces, so line order is kept |
| `Ledger.DatedBeforeCount` | kitupiikki/arkisto/poistaja.cpp:120-122 | each line before the end is kept as many times as it occurs, so the SUM counts identical lines separately; later lines are not kept |
| `Ledger.OfCentre` | kitupiikki/arkisto/poistaja.cpp:120-121 | the lines of one cost centre's group are exactly the account's lines booked to that centre |
| `Ledger.OfCentreConcat` | kitupiikki/arkisto/poistaja.cpp:120-121 | the per-centre selection of the GROUP BY works piece by piece and keeps line order |
| `Ledger.OfCentreCount` | kitupiikki/arkisto/poistaja.cpp:120-121 | each line of the centre is kept as many times as it occurs, and lines of other centres are not kept |
| `Ledger.Centres` | kitupiikki/arkisto/poistaja.cpp:120-121 | `GROUP BY kohdennus ORDER BY kohdennus`: each cost centre that occurs appears once, in strictly increasing order, and no other centre appears |
| `Ledger.CentreGroups` | kitupiikki/arkisto/poistaja.cpp:120-126 | one group per cost centre that has a line before the period end, in increasing centre order, each carrying `SUM(debetsnt) - SUM(kreditsnt)` of that centre's lines before the end |
| `Ledger.CentreGroupsPartition` | kitupiikki/arkisto/poistaja.cpp:120-126 | the split loses and duplicates nothing: the group balances add up to the balance of all the account's lines before the period end |
| `Amounts.DecliningAmount` | kitupiikki/arkisto/poistaja.cpp:100-102 | the declining-balance amount is `balance * rate / 100` rounded halves-away, within half a cent of the exact value |
| `Amounts.DecliningWithinBalance` | kitupiikki/arkisto/poistaja.cpp:100-102 | at a rate from 0 to 100 %, the amount has the balance's sign and does not exceed the balance, so the remaining balance keeps its sign and does not grow |
| `Amounts.DecliningExtremeRates` | kitupiikki/arkisto/poistaja.cpp:101 | at 100 % the whole balance is written off, and at 0 % nothing is |
| `Amounts.ElapsedMonths` | kitupiikki/arkisto/poistaja.cpp:230-231 | the months elapsed count both the acquisition month and the period's last month, and are at least 1 exactly when the lot was acquired no later than the period's month |
| `Amounts.AllowedDepreciation` | kitupiikki/arkisto/poistaja.cpp:236-238 | the cumulative allowance after the cap never exceeds the original cost. Its value is given case by case by `AllowedProRata`, `AllowedAtTermEnd` and `NegativeCostAllowance` |
| `Amounts.LotAmount` | kitupiikki/arkisto/poistaja.cpp:241 | this period's amount takes the lot's balance to exactly `original - allowed`, which is never negative |
| `Amounts.AllowedProRata` | kitupiikki/arkisto/poistaja.cpp:236-238 | within the term, and for a non-negative cost, the allowance is the floor of `original * elapsed / term` and is non-negative |
| `Amounts.AllowedAtTermEnd` | kitupiikki/arkisto/poistaja.cpp:236-238 | for a non-negative cost, once the term has run out, the whole original cost is allowed |
| `Amounts.NegativeCostAllowance` | kitupiikki/arkisto/poistaja.cpp:236-238 | for a negative original cost, the allowance is the whole cost anywhere within the term, so the lot is cleared in its first month. From the end of the term it is the uncapped truncated share `original * elapsed / term` |
| `Amounts.AllowedMonotone` | kitupiikki/arkisto/poistaja.cpp:236-238 | for a non-negative cost, the allowance never decreases as months pass |
| `Amounts.OneSidedCapOvershoots` | kitupiikki/arkisto/poistaja.cpp:237-241 | the cap is one-sided: a lot with cost -1200 and a 12-month term, 24 months in, is allowed -2400 and pushed from -1200 to +1200 |
| `Amounts.AllowedDepreciation32` | kitupiikki/arkisto/poistaja.cpp:236-238 | `laskennallinenPoisto` as the source computes it, with the product wrapped to 32 bits: still capped from above at the original cost, and equal to the unbounded allowance whenever the product fits |
| `Amounts.LotAmount32` | kitupiikki/arkisto/poistaja.cpp:241 | `eraPoisto` in 32-bit `int`: it lies in the `int` range, and the lot is left at `original - allowed` modulo 2^32 |
| `Amounts.LotAmount32InRange` | kitupiikki/arkisto/poistaja.cpp:236-241 | while the product and the result fit in 32 bits, the source's `int` arithmetic gives the same allowance and amount as the unbounded model |
| `Amounts.ProductOverflowWritesUp` | kitupiikki/arkisto/poistaja.cpp:236 | a lot of 10^8 cents on a 60-month term, 24 months in, gets -31582788 from 32-bit arithmetic instead of 40000000 |
| `Amounts.WorkedExamples` | kitupiikki/arkisto/poistaja.cpp:230-241 | 25 % of 100000 cents is 25000. A 24-month lot of 120000 cents acquired in January is 6 months old at the end of June and is written down 30000 |
| `Report.TermRule` | kitupiikki/arkisto/poistaja.cpp:247-250 | the term splits into whole years and remaining months (C++ `/ 12`, `% 12`) that recombine to the term, the months carrying the term's sign; the months are 0 exactly when the term is a whole number of years |
| `Report.TermTextShape` | kitupiikki/arkisto/poistaja.cpp:247-250 | the rule text is `"<y> v"` for whole years and `"<y> v <m> kk"` otherwise, and the numbers in it read back to the years and months of the term |
| `Report.RuleText` | kitupiikki/arkisto/poistaja.cpp:108 | the rule column reads `"<rate> %"`, `"<y> v"` or `"... kk"`, and the number before `" %"` or `" v"` parses back to the rate or the years (also poistaja.cpp:134 and :247-250) |
| `Postings.Flatten` | kitupiikki/arkisto/poistaja.cpp:166-188 | the proposal holds two lines per posting |
| `Postings.FlattenLegs` | kitupiikki/arkisto/poistaja.cpp:166-188 | pair `k` of the flat list (positions `2k` and `2k+1`) is exactly the credit line and the debit line of posting `k` |
| `Postings.FlattenPaired` | kitupiikki/arkisto/poistaja.cpp:166-188 | balanced postings flatten into a list whose even positions pair into balanced credit/debit lines |
| `Postings.PairedBalances` | kitupiikki/arkisto/poistaja.cpp:139-161 | a list that pairs into balanced credit/debit lines balances as a whole: total debits equal total credits |
| `Depreciation.TermedLots` | kitupiikki/arkisto/poistaja.cpp:214-227 | the lots depreciated are exactly those whose originating line was found and has a non-zero term |
| `Depreciation.TermedLotsConcat` | kitupiikki/arkisto/poistaja.cpp:206-227 | the termed lots of a concatenated lot list are those of each piece, in list order |
| `Depreciation.TermedLotsCount` | kitupiikki/arkisto/poistaja.cpp:206-227 | a termed lot is depreciated as many times as it is listed, and a lot without a term is not depreciated |
| `Depreciation.LotEntry` | kitupiikki/arkisto/poistaja.cpp:241-276 | a lot's row shows its balance before and its term, and leaves it at `original - allowed`. Its posting credits the account and debits the contra-account with the row's amount, tagged with the lot and its originating cost centre |
| `Depreciation.LotsBlockRecords` | kitupiikki/arkisto/poistaja.cpp:206-278 | row `k` and posting `k` of a straight-line account record the `k`-th termed lot, in list order |
| `Depreciation.CentreEntry` | kitupiikki/arkisto/poistaja.cpp:125-161 | a cost centre's row shows the group's balance and the rate, rounds the centre's own balance, and leaves `balance - amount`. Its posting moves that amount to the contra-account, tagged with the centre on both lines |
| `Depreciation.CentresBlockRecords` | kitupiikki/arkisto/poistaja.cpp:118-162 | row `k` and posting `k` of a split account record the `k`-th cost-centre group |
| `Depreciation.DecliningBlock` | kitupiikki/arkisto/poistaja.cpp:96-189 | a declining-balance account opens with a summary row and closes with a blank row. The summary row carries the account's number and name and the rate, and rounds the whole balance. Without a split it has exactly one balanced posting of the summary amount, with no cost centre and no lot. With a split it has one row and one posting per cost-centre group, and none for the whole balance |
| `Depreciation.StraightLineBlock` | kitupiikki/arkisto/poistaja.cpp:193-279 | a straight-line account has a header row, then one row and one posting per termed lot in list order, then a blank row |
| `Depreciation.AccountBlock` | kitupiikki/arkisto/poistaja.cpp:96-281 | the account's kind picks the block: declining balance or straight line. Every posting of a contributing account is balanced, dated at the period end, and credits the account and debits its contra-account; the block ends with a blank row |
| `Depreciation.Propose` | kitupiikki/arkisto/poistaja.cpp:77-94 | the run fails exactly when some depreciable account with a non-zero balance has an invalid contra-account, and the failure names the first such account in chart order. On success, the result is exactly the blocks of the contributing accounts, one after another in chart order (`Blocks`). Every posting is balanced and comes from a contributing account |
| `Depreciation.Run` | kitupiikki/arkisto/poistaja.cpp:52-282 | the same abort behaviour. On success, the statement is exactly the rows of the contributing accounts' blocks in chart order. The proposal is their postings flattened into credit/debit lines. The flat proposal pairs into balanced credit/debit lines dated at the period end, so it balances as a whole, and every pair comes from a contributing account |
| `Depreciation.ContributingOnly` | kitupiikki/arkisto/poistaja.cpp:77-86 | exactly the depreciable accounts with a non-zero balance take part |
| `Depreciation.ContributingOnlyConcat` | kitupiikki/arkisto/poistaja.cpp:77-86 | the contributing accounts of a concatenated chart are those of each piece, in chart order |
| `Depreciation.ContributingOnlyCount` | kitupiikki/arkisto/poistaja.cpp:77-86 | a contributing account takes part as many times as it occurs, and any other account not at all |
| `Depreciation.SkippedAccountsIgnored` | kitupiikki/arkisto/poistaja.cpp:77-86 | accounts that are not depreciable, or have a zero balance, do not affect the outcome: the run over the contributing accounts alone gives the same result |
| `Depreciation.AbortIsFinal` | kitupiikki/arkisto/poistaja.cpp:88-94 | once the run has aborted, accounts after it cannot change the outcome |
| `Depreciation.SplitRoundingDrift` | kitupiikki/arkisto/poistaja.cpp:101-142 | with a split at 50 %, two 1-cent centres are written down 2 cents in all, while the 2-cent account rounds to 1 cent |
| `Pending.Selected` | kitupiikki/arkisto/poistaja.cpp:333-334 | the query reads exactly the lines on `APM`/`APT` accounts dated on or before the period end |
| `Pending.SelectedConcat` | kitupiikki/arkisto/poistaja.cpp:333-334 | the query reads a concatenation piece by piece, keeping line order |
| `Pending.SelectedCount` | kitupiikki/arkisto/poistaja.cpp:333-334 | each counted line is read as many times as it occurs, so the SUMs count identical lines separately; uncounted lines are not read |
| `Pending.HasPendingDepreciation` | kitupiikki/arkisto/poistaja.cpp:329-340 | no result row gives false. Otherwise the answer is whether the selected lines' debit and credit sums differ after each is narrowed to a 32-bit `int` |
| `Pending.UnbalancedIffNonZeroNet` | kitupiikki/arkisto/poistaja.cpp:336-337 | debits and credits differ exactly when the signed sum of `debit - credit` over the lines is non-zero |
| `Pending.IgnoredLinesIrrelevant` | kitupiikki/arkisto/poistaja.cpp:333-334 | a line of another account type, or dated after the period end, does not change what the query reads, wherever it stands among the lines |
| `Pending.NarrowingMasksImbalance` | kitupiikki/arkisto/poistaja.cpp:337 | one instance: a single depreciable line debited 2^32 cents and never credited reads as balanced after `toInt()` |
| `Pending.NarrowedImbalance` | kitupiikki/arkisto/poistaja.cpp:336-337 | after the `toInt()` narrowing, the query reports pending depreciation exactly when the net balance of the selected lines is not a multiple of 2^32 cents |
| `CheckCombo.CheckedItemsConcat` | kitupiikki/tools/checkcombo.cpp:61-67 | filtering the checked items distributes over concatenation |
| `CheckCombo.CheckedItemsAreChecked` | kitupiikki/tools/checkcombo.cpp:63 | every item the filter keeps is checked |
| `CheckCombo.CheckedItemsCount` | kitupiikki/tools/checkcombo.cpp:61-67 | each checked item is kept as many times as it occurs, and no item in another state is kept |
| `CheckCombo.CheckedItemsKeepsChecked` | kitupiikki/tools/checkcombo.cpp:63-64 | every checked item of the list is kept |
| `CheckCombo.CheckedItemsEmpty` | kitupiikki/tools/checkcombo.cpp:61-67 | the filter keeps nothing exactly when no item is checked |
| `CheckCombo.CheckedItemsAll` | kitupiikki/tools/checkcombo.cpp:61-67 | the filter keeps every item when all are checked |
| `CheckCombo.SelectedDatas` | kitupiikki/tools/checkcombo.cpp:58-69 | returns the data of exactly the checked items, in item order (partially checked items excluded) |
| `CheckCombo.UpdateText` | kitupiikki/tools/checkcombo.cpp:71-87 | the text is the checked captions in item order, with ", " before a caption only when the text so far is non-empty |
| `CheckCombo.TextIsJoin` | kitupiikki/tools/checkcombo.cpp:71-87 | when no checked caption is empty, the text is exactly the checked captions joined with ", " |
| `CheckCombo.TextEmptyIff` | kitupiikki/tools/checkcombo.cpp:71-87 | the text is empty exactly when every checked caption is empty, in particular when nothing is checked |
| `CheckCombo.EmptyLabelSkipsSeparator` | kitupiikki/tools/checkcombo.cpp:78-83 | an empty first caption swallows the separator, so the text is `"b"` where a plain join would give `", b"` |
| `ComboText.TrailingEmptyLabelKeepsSeparator` | kitupiikki/tools/checkcombo.cpp:78-83 | an empty caption after a non-empty text keeps its separator: the text for `a` and an empty caption is `"a, "` |
| `ComboText.TextSkipsLeadingEmpty` | kitupiikki/tools/checkcombo.cpp:71-87 | for any checked captions, the text drops the leading empty ones and joins all the rest with ", ", empty ones included |
| `CheckCombo.AddItem` | kitupiikki/tools/checkcombo.cpp:44-56 | appends one item with the given caption, data and state, and leaves the earlier items untouched. The text matches the new items, and the selection grows by the new data exactly when the item is checked |
| `CheckCombo.Toggle` | kitupiikki/tools/checkcombo.cpp:96-100 | pressing a row checks it unless it was checked, and then sets it to unchecked (never to partially checked); the row's caption and data and every other row are unchanged |
| `CheckCombo.OnItemPressed` | kitupiikki/tools/checkcombo.cpp:94-102 | the pressed row is toggled and the text is refreshed to match the new items |
| `CheckCombo.ToggleTwice` | kitupiikki/tools/checkcombo.cpp:96-100 | pressing a checked or unchecked row twice restores the items; a partially checked row ends up unchecked |
| `CheckCombo.ToggleSelection` | kitupiikki/tools/checkcombo.cpp:94-102 | a press adds the row to the checked items or removes it: the count changes by exactly one |

## Findings

| source | as written | input that shows it | evidently intended | confidence | as-written member | corrected member |
|---|---|---|---|---|---|---|
| kitupiikki/arkisto/poistaja.cpp:236 | `alkuSnt * kuukauttaKulunut` is computed in 32-bit `int` before the division by the term | a lot of 1 000 000.00 euros (10^8 cents), 60-month term, 24 months elapsed: the product 2.4·10^9 wraps to -1894967296, and the lot is written up by 315 827.88 euros | the pro-rata allowance `original * elapsed / term` in wide arithmetic: 40 000 000 cents, written down | medium: signed overflow is undefined in C++ and wraps on common targets; not executed | `Amounts.ProductOverflowWritesUp` | `Amounts.AllowedProRata` |

The rest of the model uses the unbounded `Amounts.AllowedDepreciation`.
`Amounts.LotAmount32InRange` shows that the two agree whenever the product and the
result fit in 32 bits.

## Left out

- The SQL queries and the database are left out; their results are inputs:
  - the chart of accounts and each account's JSON settings;
  - `saldoPaivalle`;
  - the account's posted lines;
  - the lot list of `EranValintaModel`;
  - the originating line of each lot.
- The GUI is I/O and is left out:
  - the report writer's columns, bold face, links and HTML;
  - the dialog;
  - the voucher (`TositeModel`), its PDF attachment and printing;
  - the `Poistokirjaus` setting.
- Memo texts and their Finnish wording, and the locale formatting of euros, are
  presentation. `Memo` keeps the values they are built from.
- Cost-centre names (`kp()->kohdennukset()->kohdennus(...)`) are a lookup in another
  component. Rows and lines carry the cost-centre id instead.
- The exec failure of the `onkoPoistoja` query is a database condition. It is the
  parameter `queryRow`.
- `Amounts.DecliningAmount`: the source evaluates `std::round(saldo * pros / 100.0)` in
  double precision, while the model rounds the exact quotient. The two agree while
  |balance × rate| < 2^52. Beyond that, and for a 64-bit overflow of
  `saldo * poistoprosentti`, the double result is not modelled.
- `Depreciation.LotEntry`: the lot's balance and original cost are taken as
  already-narrowed integers. None of these is modelled anywhere:
  - the `toInt()` narrowing of the lot balance `eraSaldo`;
  - the 32-bit `debetsnt.toInt() - kreditsnt.toInt()` that gives `alkuSnt`.

  The as-written members `Amounts.AllowedDepreciation32` and `Amounts.LotAmount32`
  model only the wrap of the product and of `eraPoisto` (see Findings).
- CheckCombo is modelled at the level of its item list. The following are left out:
  - the event filter, `keyPressEvent` and `focusOutEvent` (popup and focus handling);
  - the paint delegate;
  - the item flags;
  - the signal wiring of the constructor.
- `dataChanged → updateText` is reflected by `AddItem` and `OnItemPressed`, which
  both leave the combo `Consistent`.
- The `QStandardItem*` that `addItem` returns is the new last item of `AddItem`'s
  result.

=== FILE: amounts.dfy ===
/** The two depreciation rules of `Poistaja::sumupoistaja`, as integer arithmetic
    on cents: declining balance (menojäännöspoisto) and straight line over an
    asset lot's term (tasaeräpoisto). */
module Amounts {
  import opened Arith
  import opened Ledger

  /** Declining-balance depreciation of `balance` at `rate` percent: the exact
      quotient `balance * rate / 100` rounded to the nearest cent, halves away
      from zero. */
  function DecliningAmount(balance: int, rate: int): (amount: int)
    ensures IsRoundHalfAway(balance * rate, 100, amount)
    ensures 2 * Abs(balance * rate - 100 * amount) <= 100
  {
    RoundHalfAway(balance * rate, 100)
  }

  /** With a rate between 0 and 100 % the depreciation has the balance's sign and
      never exceeds it, so the remaining balance keeps its sign and shrinks. */
  lemma DecliningWithinBalance(balance: int, rate: int)
    requires 0 <= rate <= 100
    ensures balance >= 0 ==> 0 <= DecliningAmount(balance, rate) <= balance
    ensures balance <= 0 ==> balance <= DecliningAmount(balance, rate) <= 0
    ensures Abs(balance - DecliningAmount(balance, rate)) <= Abs(balance)
  {
    var n := balance * rate;
    var r := DecliningAmount(balance, rate);
    var e := 2 * (n - r * 100);
    assert e == 2 * n - 200 * r;
    if balance >= 0 {
      MulLe(rate, 100, balance);
      MulLe(0, rate, balance);
      assert rate * balance == n && 100 * balance == balance * 100;
      assert 0 <= n <= 100 * balance;
      assert -100 <= e < 100;
    } else {
      MulLe(rate, 100, -balance);
      MulLe(0, rate, -balance);
      assert rate * -balance == -n;
      assert 100 * balance <= n <= 0;
      assert -100 < e <= 100;
    }
  }

  /** A 100 % rate writes the whole balance off; a 0 % rate writes nothing off. */
  lemma DecliningExtremeRates(balance: int)
    ensures DecliningAmount(balance, 100) == balance
    ensures DecliningAmount(balance, 0) == 0
  {
    assert IsRoundHalfAway(balance * 100, 100, balance);
    RoundHalfAwayUnique(balance * 100, 100, balance);
  }

  /** Months from the acquisition month through the period's last month, both
      counted (`kuukauttaKulunut`). */
  function ElapsedMonths(end: Date, acquired: Date): (m: int)
    ensures m >= 1 <==> MonthIndex(acquired) <= MonthIndex(end)
    ensures MonthIndex(acquired) + m - 1 == MonthIndex(end)
  {
    MonthIndex(end) - MonthIndex(acquired) + 1
  }

  /** Cumulative depreciation allowed so far on a lot (`laskennallinenPoisto`):
      `original * elapsed / term` with C++ truncating division, lowered to the
      original cost when it exceeds it. The cap is one-sided. */
  function AllowedDepreciation(original: int, elapsed: int, term: int): (allowed: int)
    requires term != 0
    ensures allowed <= original
  {
    var prorata := TruncDiv(original * elapsed, term);
    if prorata > original then original else prorata
  }

  /** This period's straight-line depreciation of a lot (`eraPoisto`): whatever
      brings the lot's current balance to exactly `original - allowed`. */
  function LotAmount(original: int, balance: int, elapsed: int, term: int): (amount: int)
    requires term != 0
    ensures balance - amount == original - AllowedDepreciation(original, elapsed, term)
    ensures balance - amount >= 0
  {
    AllowedDepreciation(original, elapsed, term) - original + balance
  }

  /** Within the term the allowance is the floor of the pro-rata share of the cost. */
  lemma AllowedProRata(original: int, elapsed: int, term: int)
    requires original >= 0 && term > 0 && 0 <= elapsed <= term
    ensures AllowedDepreciation(original, elapsed, term) == original * elapsed / term
    ensures 0 <= AllowedDepreciation(original, elapsed, term)
  {
    var n := original * elapsed;
    MulLe(elapsed, term, original);
    MulLe(0, elapsed, original);
    assert elapsed * original == n && 0 * original == 0;
    assert 0 <= n <= term * original;
    TruncDivIsFloor(n, term);
    FloorAtMost(n, term, original);
  }

  /** A dividend between 0 and `c * d` has a floor quotient between 0 and `c`. */
  lemma FloorAtMost(n: int, d: int, c: int)
    requires d > 0 && 0 <= n <= d * c
    ensures 0 <= n / d <= c
  {
    FloorMonotone(0, n, d);
    FloorMonotone(n, d * c, d);
    assert c * d == d * c;
    FloorUnique(d * c, d, c);
  }

  /** Once the term has run out the whole original cost is allowed. */
  lemma AllowedAtTermEnd(original: int, elapsed: int, term: int)
    requires original >= 0 && term > 0 && elapsed >= term
    ensures AllowedDepreciation(original, elapsed, term) == original
  {
    var n := original * elapsed;
    MulLe(term, elapsed, original);
    assert elapsed * original == n && term * original == original * term;
    TruncDivIsFloor(n, term);
    FloorMonotone(original * term, n, term);
    FloorUnique(original * term, term, original);
  }

  /** For a credit lot (negative original cost) the one-sided cap fires from the
      start: within the term the whole cost is allowed at once, so the lot is
      cleared in its first month; after the term the pro-rata share passes the cost
      and is allowed uncapped. */
  lemma NegativeCostAllowance(original: int, elapsed: int, term: int)
    requires original < 0 && term > 0
    ensures 0 <= elapsed <= term ==> AllowedDepreciation(original, elapsed, term) == original
    ensures elapsed >= term ==> AllowedDepreciation(original, elapsed, term) == TruncDiv(original * elapsed, term)
  {
    var n := original * elapsed;
    var q := TruncDiv(n, term);
    var c := -original;
    assert n == -(c * elapsed);
    if 0 <= elapsed <= term {
      MulLe(elapsed, term, c);
      MulLe(0, elapsed, c);
      assert c * term == term * c;
      if Abs(q) > c {
        MulLe(c + 1, Abs(q), term);
      }
    }
    if elapsed >= term {
      MulLe(term, elapsed, c);
      assert c * term == term * c;
      if Abs(q) < c {
        MulLe(Abs(q) + 1, c, term);
      }
    }
  }

  /** For a non-negative cost the allowance never decreases as months pass. */
  lemma AllowedMonotone(original: int, e1: int, e2: int, term: int)
    requires original >= 0 && term > 0 && 0 <= e1 <= e2
    ensures AllowedDepreciation(original, e1, term) <= AllowedDepreciation(original, e2, term)
  {
    var n1, n2 := original * e1, original * e2;
    MulLe(e1, e2, original);
    MulLe(0, e1, original);
    assert e1 * original == n1 && e2 * original == n2 && 0 * original == 0;
    TruncDivIsFloor(n1, term);
    TruncDivIsFloor(n2, term);
    FloorMonotone(n1, n2, term);
  }

  /** The cap only bounds the allowance from above: for a credit lot (negative
      original cost) past its term the allowance exceeds the cost in magnitude and
      the lot is pushed from -1200 to +1200. */
  lemma OneSidedCapOvershoots()
    ensures AllowedDepreciation(-1200, 24, 12) == -2400
    ensures -1200 - LotAmount(-1200, -1200, 24, 12) == 1200
  {
  }

  /** `laskennallinenPoisto` as the source evaluates it: the operands are 32-bit
      `int`s, so the product `alkuSnt * kuukauttaKulunut` wraps around before the
      division. */
  function AllowedDepreciation32(original: int, elapsed: int, term: int): (allowed: int)
    requires term != 0
    ensures allowed <= original
    ensures -TwoTo31 <= original * elapsed < TwoTo31 ==> allowed == AllowedDepreciation(original, elapsed, term)
  {
    var prorata := TruncDiv(Wrap32(original * elapsed), term);
    if prorata > original then original else prorata
  }

  /** `eraPoisto` as the source evaluates it, in 32-bit `int`. */
  function LotAmount32(original: int, balance: int, elapsed: int, term: int): (amount: int)
    requires term != 0
    ensures -TwoTo31 <= amount < TwoTo31
    ensures (balance - amount - (original - AllowedDepreciation32(original, elapsed, term))) % TwoTo32 == 0
  {
    Wrap32(AllowedDepreciation32(original, elapsed, term) - original + balance)
  }

  /** While the product and the result fit in 32 bits, the source's `int` arithmetic
      and the unbounded model agree. */
  lemma LotAmount32InRange(original: int, balance: int, elapsed: int, term: int)
    requires term != 0
    requires -TwoTo31 <= original * elapsed < TwoTo31
    requires -TwoTo31 <= LotAmount(original, balance, elapsed, term) < TwoTo31
    ensures AllowedDepreciation32(original, elapsed, term) == AllowedDepreciation(original, elapsed, term)
    ensures LotAmount32(original, balance, elapsed, term) == LotAmount(original, balance, elapsed, term)
  {
  }

  /** A lot of 1 000 000.00 euros (10^8 cents) on a 60-month term, 24 months in:
      `10^8 * 24` does not fit in 32 bits, the product wraps to a negative number,
      and the lot is written UP by 315 827.88 euros instead of down by 400 000.00. */
  lemma ProductOverflowWritesUp()
    ensures LotAmount32(100000000, 100000000, 24, 60) == -31582788
    ensures LotAmount(100000000, 100000000, 24, 60) == 40000000
  {
    assert Wrap32(100000000 * 24) == -1894967296;
    assert TruncDiv(-1894967296, 60) == -31582788;
  }

  /** Worked figures: 25 % of 1000.00 is 250.00; a 120000-cent lot with a 24-month
      term acquired in January is allowed 30000 cents by the end of June. */
  lemma WorkedExamples()
    ensures DecliningAmount(100000, 25) == 25000
    ensures ElapsedMonths(Date(2022, 6, 30), Date(2022, 1, 15)) == 6
    ensures LotAmount(120000, 120000, 6, 24) == 30000
  {
    assert IsRoundHalfAway(100000 * 25, 100, 25000);
    RoundHalfAwayUnique(100000 * 25, 100, 25000);
  }
}

=== FILE: arith.dfy ===
/** Integer arithmetic of the C++ source, written out over unbounded integers:
    `/` and `%` that truncate toward zero, and `std::round` of an exact quotient. */
module Arith {

  function Abs(x: int): nat
  {
    if x < 0 then -x else x
  }

  /** Multiplying both sides of `x <= y` by a non-negative factor keeps the order. */
  lemma MulLe(x: int, y: int, b: int)
    requires x <= y && 0 <= b
    ensures x * b <= y * b
  {
    assert y * b - x * b == (y - x) * b;
  }

  /** The product's sign follows the factors' signs; its magnitude is the product of
      the magnitudes. */
  lemma MulSign(x: int, y: int)
    ensures x * y == (if (x >= 0) == (y >= 0) then Abs(x) * Abs(y) else -(Abs(x) * Abs(y)))
  {
    if x < 0 && y < 0 {
      assert x * y == (-x) * (-y);
    } else if x < 0 {
      assert x * y == -((-x) * y);
    } else if y < 0 {
      assert x * y == -(x * (-y));
    }
  }

  /** Euclidean division by a positive divisor brackets the dividend. */
  lemma DivBounds(a: int, b: int)
    requires b > 0
    ensures b * (a / b) <= a < b * (a / b) + b
  {
    assert a == b * (a / b) + a % b;
  }

  /** Floor division by a positive divisor is monotone in the dividend. */
  lemma FloorMonotone(a1: int, a2: int, b: int)
    requires b > 0 && a1 <= a2
    ensures a1 / b <= a2 / b
  {
    var q1, q2 := a1 / b, a2 / b;
    DivBounds(a1, b);
    DivBounds(a2, b);
    assert b * q1 == q1 * b && b * q2 == q2 * b;
    assert (q2 + 1) * b == q2 * b + b;
    if q1 > q2 {
      MulLe(q2 + 1, q1, b);
    }
  }

  /** The floor quotient `a / b` is the only `k` with `k*b <= a < (k+1)*b`. */
  lemma FloorUnique(a: int, b: int, k: int)
    requires b > 0
    requires k * b <= a < k * b + b
    ensures k == a / b
  {
    var m := a / b;
    DivBounds(a, b);
    assert m * b == b * m;
    if k < m {
      MulLe(k + 1, m, b);
    } else if m < k {
      MulLe(m + 1, k, b);
    }
  }

  /** C++ integer division `n / d`: the exact quotient truncated toward zero. */
  function TruncDiv(n: int, d: int): (q: int)
    requires d != 0
    ensures Abs(q) * Abs(d) <= Abs(n) < Abs(q) * Abs(d) + Abs(d)
    ensures q == 0 || ((q > 0) <==> ((n > 0) == (d > 0)))
  {
    var a, b := Abs(n), Abs(d);
    var m := a / b;
    DivBounds(a, b);
    assert m * b == b * m;
    assert n == 0 ==> m == 0;
    var q := if (n >= 0) == (d > 0) then m else -m;
    assert Abs(q) == m;
    q
  }

  /** For a non-negative dividend and a positive divisor truncation is the floor. */
  lemma TruncDivIsFloor(n: int, d: int)
    requires n >= 0 && d > 0
    ensures TruncDiv(n, d) == n / d
  {
  }

  /** C++ remainder `n % d`: what is left after the truncating division. */
  function TruncMod(n: int, d: int): (r: int)
    requires d != 0
    ensures TruncDiv(n, d) * d + r == n
    ensures Abs(r) < Abs(d)
    ensures r == 0 || ((r > 0) <==> (n > 0))
  {
    var q := TruncDiv(n, d);
    var p := Abs(q) * Abs(d);
    MulSign(q, d);
    assert q * d == (if n >= 0 then p else -p) by {
      if q == 0 {
        assert p == 0;
      } else {
        MulLe(1, Abs(q), Abs(d));
        assert (q >= 0) == (d >= 0) <==> n > 0;
      }
    }
    n - q * d
  }

  /** Any `q` meeting `TruncDiv`'s contract is the truncated quotient. */
  lemma TruncDivUnique(n: int, d: int, q: int)
    requires d != 0
    requires Abs(q) * Abs(d) <= Abs(n) < Abs(q) * Abs(d) + Abs(d)
    requires q == 0 || ((q > 0) <==> ((n > 0) == (d > 0)))
    ensures q == TruncDiv(n, d)
  {
    var t := TruncDiv(n, d);
    FloorUnique(Abs(n), Abs(d), Abs(q));
    FloorUnique(Abs(n), Abs(d), Abs(t));
  }

  /** `r` is `n / d` rounded to the nearest integer, halves away from zero:
      for `n >= 0` the error `n/d - r` lies in [-1/2, 1/2), for `n < 0` in (-1/2, 1/2]. */
  predicate IsRoundHalfAway(n: int, d: int, r: int)
    requires d > 0
  {
    if n >= 0 then -d <= 2 * (n - r * d) < d else -d < 2 * (n - r * d) <= d
  }

  /** Rounds `m / d` for `m >= 0` with ties upward: `q = (2m + d) / (2d)`. */
  lemma RoundUpHalf(m: int, d: int, q: int)
    requires m >= 0 && d > 0
    requires q == (2 * m + d) / (2 * d)
    ensures -d <= 2 * (m - q * d) < d
  {
    DivBounds(2 * m + d, 2 * d);
    assert (2 * d) * q == 2 * (q * d);
  }

  /** `std::round(n / d)` for an exactly represented quotient (C++ `std::round`
      rounds halfway cases away from zero). */
  function RoundHalfAway(n: int, d: int): (r: int)
    requires d > 0
    ensures IsRoundHalfAway(n, d, r)
    ensures 2 * Abs(n - r * d) <= d
  {
    if n >= 0 then
      var q := (2 * n + d) / (2 * d);
      RoundUpHalf(n, d, q);
      q
    else
      var q := (-2 * n + d) / (2 * d);
      RoundUpHalf(-n, d, q);
      assert (-q) * d == -(q * d);
      -q
  }

  /** At most one integer satisfies `IsRoundHalfAway`, so the predicate is a
      complete reference definition of the rounding. */
  lemma RoundHalfAwayUnique(n: int, d: int, r: int)
    requires d > 0
    requires IsRoundHalfAway(n, d, r)
    ensures r == RoundHalfAway(n, d)
  {
    RoundingsAgree(n, d, r, RoundHalfAway(n, d));
  }

  lemma RoundingsAgree(n: int, d: int, r: int, r0: int)
    requires d > 0
    requires IsRoundHalfAway(n, d, r) && IsRoundHalfAway(n, d, r0)
    ensures r == r0
  {
    var k := r0 - r;
    assert k * d == r0 * d - r * d;
    SmallMultiple(k, d);
  }

  /** The only multiple of `d` strictly between `-d` and `d` is zero. */
  lemma SmallMultiple(k: int, d: int)
    requires d > 0 && -d < k * d < d
    ensures k == 0
  {
    if k >= 1 {
      MulLe(1, k, d);
    } else if k <= -1 {
      MulLe(k, -1, d);
    }
  }

  const TwoTo31: int := 0x8000_0000
  const TwoTo32: int := 0x1_0000_0000

  /** The value a 32-bit two's-complement `int` holds after an arithmetic result or a
      narrowing conversion: `x` reduced modulo 2^32 into [-2^31, 2^31). */
  function Wrap32(x: int): (r: int)
    ensures -TwoTo31 <= r < TwoTo31
    ensures (x - r) % TwoTo32 == 0
    ensures -TwoTo31 <= x < TwoTo31 ==> r == x
  {
    (x + TwoTo31) % TwoTo32 - TwoTo31
  }

  /** Two values narrow to the same 32-bit `int` exactly when they differ by a whole
      number of turns of 2^32. */
  lemma Wrap32Same(a: int, b: int)
    ensures Wrap32(a) == Wrap32(b) <==> (a - b) % TwoTo32 == 0
  {
    var ra, rb := Wrap32(a), Wrap32(b);
    var qa, qb := (a - ra) / TwoTo32, (b - rb) / TwoTo32;
    assert a - ra == TwoTo32 * qa && b - rb == TwoTo32 * qb;
    var q := (a - b) / TwoTo32;
    assert a - b == TwoTo32 * q + (a - b) % TwoTo32;
    if (a - b) % TwoTo32 == 0 {
      var k := q - qa + qb;
      assert ra - rb == k * TwoTo32;
      SmallMultiple(k, TwoTo32);
    }
    if ra == rb {
      var k := qa - qb;
      assert a - b == k * TwoTo32;
      FloorUnique(a - b, TwoTo32, k);
    }
  }
}

=== FILE: checkcombo.dfy ===
/** `CheckCombo`: a combo box whose rows are checkable items and whose read-only
    line edit shows the labels of the checked ones. The item model is a sequence of
    (label, data, check state); the data is an opaque value. */
module CheckCombo {

  /** `Qt::CheckState`. */
  datatype CheckState = Unchecked | PartiallyChecked | Checked

  datatype Item<D> = Item(caption: string, data: D, state: CheckState)

  /** The item model's rows and the text shown in the line edit. */
  datatype Combo<D> = Combo(items: seq<Item<D>>, text: string)

  /** The checked items, in list order. */
  function CheckedItems<D>(items: seq<Item<D>>): (r: seq<Item<D>>)
    ensures |r| <= |items|
  {
    if |items| == 0 then []
    else
      var last := items[|items| - 1];
      CheckedItems(items[..|items| - 1]) + (if last.state == Checked then [last] else [])
  }

  function Datas<D>(items: seq<Item<D>>): (r: seq<D>)
    ensures |r| == |items|
  {
    if |items| == 0 then [] else Datas(items[..|items| - 1]) + [items[|items| - 1].data]
  }

  function Labels<D>(items: seq<Item<D>>): (r: seq<string>)
    ensures |r| == |items|
  {
    if |items| == 0 then [] else Labels(items[..|items| - 1]) + [items[|items| - 1].caption]
  }

  lemma {:induction false} CheckedItemsConcat<D>(a: seq<Item<D>>, b: seq<Item<D>>)
    ensures CheckedItems(a + b) == CheckedItems(a) + CheckedItems(b)
  {
    if |b| > 0 {
      assert (a + b)[..|a + b| - 1] == a + b[..|b| - 1];
      CheckedItemsConcat(a, b[..|b| - 1]);
    } else {
      assert a + b == a;
    }
  }

  lemma {:induction false} DatasConcat<D>(a: seq<Item<D>>, b: seq<Item<D>>)
    ensures Datas(a + b) == Datas(a) + Datas(b)
  {
    if |b| > 0 {
      assert (a + b)[..|a + b| - 1] == a + b[..|b| - 1];
      DatasConcat(a, b[..|b| - 1]);
    } else {
      assert a + b == a;
    }
  }

  /** The filter keeps only checked items. */
  lemma {:induction false} CheckedItemsAreChecked<D>(items: seq<Item<D>>)
    ensures forall k :: 0 <= k < |CheckedItems(items)| ==> CheckedItems(items)[k].state == Checked
  {
    if |items| > 0 {
      var init := items[..|items| - 1];
      var last := items[|items| - 1];
      CheckedItemsAreChecked(init);
      var c, ci := CheckedItems(items), CheckedItems(init);
      assert c == ci + (if last.state == Checked then [last] else []);
      forall k | 0 <= k < |c| ensures c[k].state == Checked {
        if k < |ci| { assert c[k] == ci[k]; } else { assert c[k] == last; }
      }
    }
  }

  /** Each checked item is kept as many times as it occurs, and no other item is kept. */
  lemma {:induction false} CheckedItemsCount<D>(items: seq<Item<D>>)
    ensures forall x :: multiset(CheckedItems(items))[x] == if x.state == Checked then multiset(items)[x] else 0
  {
    if |items| > 0 {
      var init := items[..|items| - 1];
      var last := items[|items| - 1];
      CheckedItemsCount(init);
      assert items == init + [last];
      assert CheckedItems(items) == CheckedItems(init) + (if last.state == Checked then [last] else []);
    }
  }

  /** Every checked item is kept. */
  lemma {:induction false} CheckedItemsKeepsChecked<D>(items: seq<Item<D>>, i: nat)
    requires i < |items| && items[i].state == Checked
    ensures items[i] in CheckedItems(items)
  {
    CheckedItemsCount(items);
    assert multiset(items)[items[i]] > 0;
  }

  /** The filter keeps nothing exactly when nothing is checked. */
  lemma {:induction false} CheckedItemsEmpty<D>(items: seq<Item<D>>)
    ensures CheckedItems(items) == [] <==> forall k :: 0 <= k < |items| ==> items[k].state != Checked
  {
    if |items| > 0 {
      var init := items[..|items| - 1];
      var last := items[|items| - 1];
      CheckedItemsEmpty(init);
      assert CheckedItems(items) == CheckedItems(init) + (if last.state == Checked then [last] else []);
      assert forall k :: 0 <= k < |init| ==> init[k] == items[k];
    }
  }

  /** The filter keeps everything when everything is checked. */
  lemma {:induction false} CheckedItemsAll<D>(items: seq<Item<D>>)
    requires forall k :: 0 <= k < |items| ==> items[k].state == Checked
    ensures CheckedItems(items) == items
  {
    if |items| > 0 {
      var init := items[..|items| - 1];
      assert forall k :: 0 <= k < |init| ==> init[k] == items[k];
      CheckedItemsAll(init);
      assert init + [items[|items| - 1]] == items;
    }
  }

  lemma CheckedItemsStep<D>(items: seq<Item<D>>, i: nat)
    requires i < |items|
    ensures CheckedItems(items[..i + 1])
         == CheckedItems(items[..i]) + (if items[i].state == Checked then [items[i]] else [])
  {
    assert items[..i + 1][..i] == items[..i];
  }

  lemma DatasStep<D>(items: seq<Item<D>>, i: nat)
    requires i < |items|
    ensures Datas(CheckedItems(items[..i + 1]))
         == Datas(CheckedItems(items[..i])) + (if items[i].state == Checked then [items[i].data] else [])
  {
    CheckedItemsStep(items, i);
    var c := CheckedItems(items[..i]);
    if items[i].state == Checked {
      DatasConcat(c, [items[i]]);
      assert Datas([items[i]]) == [items[i].data] by {
        assert [items[i]][..0] == [];
      }
    } else {
      assert c + [] == c;
    }
  }

  lemma ShownStep<D>(items: seq<Item<D>>, i: nat)
    requires i < |items| && items[i].state == Checked
    ensures Labels(CheckedItems(items[..i + 1])) == Labels(CheckedItems(items[..i])) + [items[i].caption]
  {
    CheckedItemsStep(items, i);
    var c := CheckedItems(items[..i]);
    assert (c + [items[i]])[..|c|] == c;
  }

  /** `selectedDatas`: the data of exactly the checked items, in list order. */
  method SelectedDatas<D>(items: seq<Item<D>>) returns (selected: seq<D>)
    ensures selected == Datas(CheckedItems(items))
  {
    selected := [];
    var i := 0;
    while i < |items|
      invariant 0 <= i <= |items|
      invariant selected == Datas(CheckedItems(items[..i]))
    {
      DatasStep(items, i);
      if items[i].state == Checked {
        selected := selected + [items[i].data];
      }
      i := i + 1;
    }
    assert items[..|items|] == items;
  }

  /** The text `updateText` builds from the checked labels: each label is appended,
      preceded by ", " only when the text so far is not empty. */
  function Text(labels: seq<string>): string
  {
    if |labels| == 0 then "" else Append(Text(labels[..|labels| - 1]), labels[|labels| - 1])
  }

  /** One step of `updateText`: the separator goes in only after a non-empty text. */
  function Append(text: string, caption: string): string
  {
    if |text| > 0 then text + ", " + caption else caption
  }

  /** Reference definition: the labels joined with ", " between consecutive ones. */
  function Join(labels: seq<string>): string
  {
    if |labels| == 0 then ""
    else if |labels| == 1 then labels[0]
    else Join(labels[..|labels| - 1]) + ", " + labels[|labels| - 1]
  }

  /** When no checked label is empty the text is exactly the ", "-joined labels. */
  lemma {:induction false} TextIsJoin(labels: seq<string>)
    requires forall i :: 0 <= i < |labels| ==> labels[i] != ""
    ensures Text(labels) == Join(labels)
    ensures |labels| > 0 ==> Text(labels) != ""
  {
    if |labels| > 0 {
      var init := labels[..|labels| - 1];
      TextIsJoin(init);
      if |labels| > 1 {
        assert labels[0] == init[0];
      }
    }
  }

  /** The text is empty exactly when every checked caption is empty; in particular it is
      empty when nothing is checked. */
  lemma {:induction false} TextEmptyIff(labels: seq<string>)
    ensures Text(labels) == "" <==> forall i :: 0 <= i < |labels| ==> labels[i] == ""
  {
    if |labels| > 0 {
      var init := labels[..|labels| - 1];
      TextEmptyIff(init);
      assert forall i :: 0 <= i < |init| ==> init[i] == labels[i];
    }
  }

  /** Empty labels are not separated: an empty first caption swallows the separator that
      a plain join would put before the second. */
  lemma EmptyLabelSkipsSeparator()
    ensures Text(["", "b"]) == "b"
    ensures Join(["", "b"]) == ", b"
  {
    assert ["", "b"][..1] == [""];
  }

  lemma TextStep(labels: seq<string>, caption: string)
    ensures Text(labels + [caption]) == Append(Text(labels), caption)
  {
    var next := labels + [caption];
    assert next[..|next| - 1] == labels;
  }

  lemma HiddenStep<D>(items: seq<Item<D>>, i: nat)
    requires i < |items| && items[i].state != Checked
    ensures CheckedItems(items[..i + 1]) == CheckedItems(items[..i])
  {
    CheckedItemsStep(items, i);
    assert CheckedItems(items[..i]) + [] == CheckedItems(items[..i]);
  }

  /** `updateText`: the text for the current items. */
  method UpdateText<D>(items: seq<Item<D>>) returns (text: string)
    ensures text == Text(Labels(CheckedItems(items)))
  {
    text := "";
    ghost var shown: seq<string> := [];
    var i := 0;
    while i < |items|
      invariant 0 <= i <= |items|
      invariant shown == Labels(CheckedItems(items[..i]))
      invariant text == Text(shown)
    {
      if items[i].state == Checked {
        var caption := items[i].caption;
        ShownStep(items, i);
        TextStep(shown, caption);
        text := Append(text, caption);
        shown := shown + [caption];
      } else {
        HiddenStep(items, i);
      }
      i := i + 1;
    }
    assert items[..|items|] == items;
  }

  /** The line edit shows the text for the current items. */
  predicate Consistent<D>(c: Combo<D>)
  {
    c.text == Text(Labels(CheckedItems(c.items)))
  }

  /** `addItem`: one item appended at the end with the given caption, data and state;
      the items before it are untouched, the text is refreshed, and the selection
      grows by the new data exactly when the item is checked. */
  method AddItem<D>(c: Combo<D>, caption: string, data: D, state: CheckState) returns (r: Combo<D>)
    ensures |r.items| == |c.items| + 1
    ensures r.items[..|c.items|] == c.items
    ensures r.items[|c.items|] == Item(caption, data, state)
    ensures Consistent(r)
    ensures Datas(CheckedItems(r.items))
         == Datas(CheckedItems(c.items)) + (if state == Checked then [data] else [])
  {
    var items := c.items + [Item(caption, data, state)];
    AppendedSelection(c.items, Item(caption, data, state));
    var text := UpdateText(items);
    r := Combo(items, text);
  }

  /** The selection of a list with one more item at the end. */
  lemma AppendedSelection<D>(items: seq<Item<D>>, it: Item<D>)
    ensures (items + [it])[..|items|] == items
    ensures Datas(CheckedItems(items + [it]))
         == Datas(CheckedItems(items)) + (if it.state == Checked then [it.data] else [])
  {
    var all := items + [it];
    assert all[..|all| - 1] == items && all[|all| - 1] == it;
    var c := CheckedItems(items);
    if it.state == Checked {
      assert CheckedItems(all) == c + [it];
      DatasConcat(c, [it]);
      assert Datas([it]) == [it.data] by {
        assert [it][..0] == [];
      }
    } else {
      assert CheckedItems(all) == c + [] == c;
    }
  }

  /** A press checks anything that is not checked and unchecks what is. */
  function Flip(s: CheckState): CheckState
  {
    if s == Checked then Unchecked else Checked
  }

  /** The items after pressing row `i`: only that row's state changes. */
  function Toggle<D>(items: seq<Item<D>>, i: nat): (r: seq<Item<D>>)
    requires i < |items|
    ensures |r| == |items|
    ensures r[i].caption == items[i].caption && r[i].data == items[i].data
    ensures (r[i].state == Checked) <==> (items[i].state != Checked)
    ensures items[i].state == Checked ==> r[i].state == Unchecked
    ensures forall j :: 0 <= j < |items| && j != i ==> r[j] == items[j]
  {
    items[i := items[i].(state := Flip(items[i].state))]
  }

  /** `onItemPressed` on row `i`: the row is toggled and the text refreshed. */
  method OnItemPressed<D>(c: Combo<D>, i: nat) returns (r: Combo<D>)
    requires i < |c.items|
    ensures r.items == Toggle(c.items, i)
    ensures Consistent(r)
  {
    var items := Toggle(c.items, i);
    var text := UpdateText(items);
    r := Combo(items, text);
  }

  /** Pressing a checked or unchecked row twice restores the items; a partially
      checked row ends up unchecked. */
  lemma ToggleTwice<D>(items: seq<Item<D>>, i: nat)
    requires i < |items|
    ensures items[i].state != PartiallyChecked ==> Toggle(Toggle(items, i), i) == items
    ensures items[i].state == PartiallyChecked ==> Toggle(Toggle(items, i), i)[i].state == Unchecked
  {
  }

  /** A press adds the row to the checked items or removes it, and nothing else. */
  lemma ToggleSelection<D>(items: seq<Item<D>>, i: nat)
    requires i < |items|
    ensures |CheckedItems(Toggle(items, i))|
         == |CheckedItems(items)| + (if items[i].state == Checked then -1 else 1)
  {
    var r := Toggle(items, i);
    var pre, post := items[..i], items[i + 1..];
    assert items == pre + [items[i]] + post;
    assert r == pre + [r[i]] + post;
    CheckedItemsConcat(pre + [items[i]], post);
    CheckedItemsConcat(pre, [items[i]]);
    CheckedItemsConcat(pre + [r[i]], post);
    CheckedItemsConcat(pre, [r[i]]);
    assert [items[i]][..0] == [] && [r[i]][..0] == [];
  }
}

=== FILE: combotext.dfy ===
/** The closed form of `CheckCombo.Text`: what `updateText` shows for any checked
    captions, empty ones included. It belongs with `CheckCombo` and is kept apart
    only so that these lemmas do not enter the proofs of `CheckCombo`'s methods. */
module ComboText {
  import opened CheckCombo

  /** A checked empty caption after a non-empty text still gets its separator. */
  lemma TrailingEmptyLabelKeepsSeparator()
    ensures Text(["a", ""]) == "a, "
  {
    assert ["a", ""][..1] == ["a"];
    assert ["a"][..0] == [];
  }

  /** The index of the first non-empty label, or `|labels|` when there is none. */
  function FirstNonEmpty(labels: seq<string>): (k: nat)
    ensures k <= |labels|
    ensures forall j :: 0 <= j < k ==> labels[j] == ""
    ensures k < |labels| ==> labels[k] != ""
  {
    if |labels| == 0 || labels[0] != "" then 0 else 1 + FirstNonEmpty(labels[1..])
  }

  lemma JoinSnoc(labels: seq<string>, caption: string)
    requires |labels| > 0
    ensures Join(labels + [caption]) == Join(labels) + ", " + caption
  {
    assert (labels + [caption])[..|labels|] == labels;
  }

  /** Adding a label at the end keeps the first non-empty one if there was one. */
  lemma {:induction false} FirstNonEmptySnoc(labels: seq<string>, caption: string)
    ensures var k0, k := FirstNonEmpty(labels), FirstNonEmpty(labels + [caption]);
            && (k0 < |labels| ==> k == k0)
            && (k0 == |labels| && caption != "" ==> k == |labels|)
            && (k0 == |labels| && caption == "" ==> k == |labels| + 1)
  {
    var all := labels + [caption];
    if |labels| == 0 {
      assert all == [caption] && all[1..] == [];
    } else if labels[0] == "" {
      assert all[0] == "" && all[1..] == labels[1..] + [caption];
      FirstNonEmptySnoc(labels[1..], caption);
    } else {
      assert all[0] == labels[0];
    }
  }

  /** The text for any labels: leading empty captions vanish, and from the first
      non-empty caption on, every label (empty ones included) is joined with ", ". */
  lemma {:induction false} TextSkipsLeadingEmpty(labels: seq<string>)
    ensures Text(labels) == Join(labels[FirstNonEmpty(labels)..])
  {
    if |labels| > 0 {
      var n := |labels| - 1;
      var init, c := labels[..n], labels[n];
      assert labels == init + [c];
      TextSkipsLeadingEmpty(init);
      FirstNonEmptySnoc(init, c);
      var k0 := FirstNonEmpty(init);
      if k0 < n {
        var rest := init[k0..];
        assert labels[k0..] == rest + [c];
        assert |rest| > 1 || rest == [init[k0]];
        JoinSnoc(rest, c);
      } else if c != "" {
        assert labels[n..] == [c];
      } else {
        assert labels[n + 1..] == [];
      }
    }
  }
}

=== FILE: decimal.dfy ===
/** Decimal rendering of integers, as Qt's `QString::arg(int)` writes them in the
    report's rule column, together with the parser that reads them back. */
module Decimal {
  import opened Results

  predicate IsDigit(c: char)
  {
    '0' <= c <= '9'
  }

  predicate AllDigits(s: string)
  {
    forall i :: 0 <= i < |s| ==> IsDigit(s[i])
  }

  function DigitChar(d: nat): (c: char)
    requires d < 10
    ensures IsDigit(c)
  {
    ('0' as int + d) as char
  }

  function DigitValue(c: char): nat
    requires IsDigit(c)
  {
    c as int - '0' as int
  }

  /** Base-ten digits of `n`, most significant first, without leading zeros. */
  function NatToString(n: nat): (s: string)
    ensures |s| > 0 && AllDigits(s)
    ensures n >= 10 ==> s[0] != '0'
  {
    if n < 10 then [DigitChar(n)] else NatToString(n / 10) + [DigitChar(n % 10)]
  }

  /** `-` followed by the digits for negative values. */
  function IntToString(i: int): (s: string)
    ensures |s| > 0
  {
    if i < 0 then "-" + NatToString(-i) else NatToString(i)
  }

  function ParseNat(s: string): nat
    requires AllDigits(s)
  {
    if |s| == 0 then 0 else 10 * ParseNat(s[..|s| - 1]) + DigitValue(s[|s| - 1])
  }

  /** Reads an optionally negative decimal integer; anything else is `None`. */
  function ParseInt(s: string): Option<int>
  {
    if 1 < |s| && s[0] == '-' && AllDigits(s[1..]) then Some(-(ParseNat(s[1..]) as int))
    else if 0 < |s| && AllDigits(s) then Some(ParseNat(s))
    else None
  }

  lemma {:induction false} ParseNatToString(n: nat)
    ensures ParseNat(NatToString(n)) == n
  {
    var s := NatToString(n);
    if n >= 10 {
      var prefix := NatToString(n / 10);
      assert s[..|s| - 1] == prefix;
      ParseNatToString(n / 10);
    }
  }

  /** Rendering loses nothing: the parser recovers every integer from its text. */
  lemma ParseIntToString(i: int)
    ensures ParseInt(IntToString(i)) == Some(i)
  {
    if i < 0 {
      var s := IntToString(i);
      assert s[1..] == NatToString(-i);
      ParseNatToString(-i);
    } else {
      ParseNatToString(i);
    }
  }
}

=== FILE: depreciation.dfy ===
/** The year-end depreciation run `Poistaja::sumupoistaja`: for every depreciable
    account with a non-zero balance at the period end it computes the period's
    depreciation, writes statement rows and proposes balanced credit/debit pairs,
    or aborts the whole run on the first account whose contra-account
    (`Poistotili`) is not a valid account. The chart of accounts, the balance
    query, the cost-centre lines and the lot list are inputs. */
module Depreciation {
  import opened Results
  import opened Arith
  import opened Ledger
  import opened Amounts
  import opened Report
  import opened Postings

  /** The lot's originating line: debit minus credit cents, the term in months from
      its JSON (`Tasaerapoisto`, 0 when missing) and its cost centre. */
  datatype Origin = Origin(original: int, term: int, centre: int)

  /** One balance lot of the account as listed after the list's placeholder row:
      lot id, acquisition date, description, current balance, and the originating
      line when the lookup by id found one. */
  datatype Lot = Lot(id: int, date: Date, description: string, balance: int, origin: Option<Origin>)

  /** How an account is written off: not at all, declining balance at `rate` percent
      (per cost centre of `lines` when `split`), or straight line over `lots`. */
  datatype Kind =
    | NotDepreciable
    | DecliningBalance(rate: int, split: bool, lines: seq<Line>)
    | StraightLine(lots: seq<Lot>)

  /** An account of the chart: number, name, balance at the period end, the number
      configured as its contra-account and whether that number names a valid account. */
  datatype Account = Account(number: int, name: string, balance: int, contra: int,
                             contraValid: bool, kind: Kind)

  /** What one account adds to the run: statement rows and postings. */
  datatype Block = Block(rows: seq<Row>, postings: seq<Posting>)

  /** The run's result: the statement and the flat list of proposed lines. */
  datatype Proposal = Proposal(rows: seq<Row>, entries: seq<Entry>)

  /** Only depreciable accounts with a non-zero balance take part. */
  predicate Contributes(a: Account)
  {
    !a.kind.NotDepreciable? && a.balance != 0
  }

  predicate Misconfigured(a: Account)
  {
    Contributes(a) && !a.contraValid
  }

  /** A lot is depreciated only when its originating line has a non-zero term. */
  predicate Termed(lot: Lot)
  {
    lot.origin.Some? && lot.origin.value.term != 0
  }

  function TermedLots(lots: seq<Lot>): (r: seq<Lot>)
    ensures forall l :: l in r <==> l in lots && Termed(l)
  {
    if |lots| == 0 then []
    else (if Termed(lots[0]) then [lots[0]] else []) + TermedLots(lots[1..])
  }

  /** The termed lots of a concatenation are those of each piece, in order. */
  lemma {:induction false} TermedLotsConcat(a: seq<Lot>, b: seq<Lot>)
    ensures TermedLots(a + b) == TermedLots(a) + TermedLots(b)
  {
    if |a| == 0 {
      assert a + b == b;
    } else {
      assert (a + b)[1..] == a[1..] + b;
      TermedLotsConcat(a[1..], b);
    }
  }

  /** A termed lot is kept as many times as it is listed; others not at all. */
  lemma {:induction false} TermedLotsCount(lots: seq<Lot>)
    ensures forall l :: multiset(TermedLots(lots))[l] == if Termed(l) then multiset(lots)[l] else 0
  {
    if |lots| > 0 {
      TermedLotsCount(lots[1..]);
      assert lots == [lots[0]] + lots[1..];
    }
  }

  /** How a termed lot appears in the statement and in its posting: the row shows the
      lot's balance before, its term, and leaves it at exactly `original - allowed`;
      the posting moves the row's amount from the account to the contra-account,
      tagged with the lot and its originating cost centre. */
  predicate LotRecorded(end: Date, a: Account, lot: Lot, row: Row, p: Posting)
  {
    && Termed(lot)
    && var o := lot.origin.value;
    && row.LotRow?
    && row.date == lot.date && row.description == lot.description
    && row.before == lot.balance
    && row.rule == TermRule(o.term)
    && row.after == row.before - row.amount
    && row.after == o.original - AllowedDepreciation(o.original, ElapsedMonths(end, lot.date), o.term)
    && Balanced(p, end) && On(p, a.number, a.contra)
    && p.credit.credit == row.amount
    && p.credit.centre == Some(o.centre) && p.debit.centre == None
    && p.credit.lot == Some(lot.id) && p.debit.lot == None
  }

  /** The row and the posting of one termed lot. */
  function LotEntry(end: Date, a: Account, lot: Lot): (rp: (Row, Posting))
    requires Termed(lot)
    ensures LotRecorded(end, a, lot, rp.0, rp.1)
  {
    var o := lot.origin.value;
    var amount := LotAmount(o.original, lot.balance, ElapsedMonths(end, lot.date), o.term);
    var row := LotRow(lot.date, lot.description, lot.balance, TermRule(o.term),
                      amount, lot.balance - amount);
    var p := Posting(
      Entry(end, a.number, 0, amount, Some(o.centre), Some(lot.id), LotMemo(lot.description)),
      Entry(end, a.contra, amount, 0, None, None, LotContraMemo(a.number, a.name, lot.description)));
    (row, p)
  }

  lemma TermedLotsCons(lots: seq<Lot>)
    requires |lots| > 0
    ensures TermedLots(lots)
         == (if Termed(lots[0]) then [lots[0]] else []) + TermedLots(lots[1..])
  {
  }

  /** The straight-line rows and postings of an account's lots: one row and one
      posting per termed lot, in list order, zero amounts included. */
  function LotsBlock(end: Date, a: Account, lots: seq<Lot>): (b: Block)
    ensures |b.rows| == |b.postings| == |TermedLots(lots)|
  {
    if |lots| == 0 then Block([], [])
    else
      var rest := LotsBlock(end, a, lots[1..]);
      if !Termed(lots[0]) then rest
      else
        var rp := LotEntry(end, a, lots[0]);
        Block([rp.0] + rest.rows, [rp.1] + rest.postings)
  }

  /** A termed first lot contributes the first row and posting; the rest follow,
      one place later. */
  lemma LotsBlockShift(end: Date, a: Account, lots: seq<Lot>)
    requires |lots| > 0 && Termed(lots[0])
    ensures var b, rest := LotsBlock(end, a, lots), LotsBlock(end, a, lots[1..]);
            var ts, tr := TermedLots(lots), TermedLots(lots[1..]);
            && |ts| == |tr| + 1 && ts[0] == lots[0]
            && b.rows[0] == LotEntry(end, a, lots[0]).0 && b.postings[0] == LotEntry(end, a, lots[0]).1
            && forall k :: 0 < k < |ts| ==>
                 ts[k] == tr[k - 1] && b.rows[k] == rest.rows[k - 1] && b.postings[k] == rest.postings[k - 1]
  {
    TermedLotsCons(lots);
  }

  /** Row `k` and posting `k` of the lots block record the `k`-th termed lot. */
  lemma {:induction false} LotsBlockRecords(end: Date, a: Account, lots: seq<Lot>)
    ensures forall k :: 0 <= k < |TermedLots(lots)| ==>
              LotRecorded(end, a, TermedLots(lots)[k], LotsBlock(end, a, lots).rows[k],
                          LotsBlock(end, a, lots).postings[k])
  {
    if |lots| > 0 {
      LotsBlockRecords(end, a, lots[1..]);
      if Termed(lots[0]) {
        LotsBlockShift(end, a, lots);
        var b, rest := LotsBlock(end, a, lots), LotsBlock(end, a, lots[1..]);
        var ts, tr := TermedLots(lots), TermedLots(lots[1..]);
        forall k | 0 <= k < |ts|
          ensures LotRecorded(end, a, ts[k], b.rows[k], b.postings[k])
        {
          if k > 0 {
            assert LotRecorded(end, a, tr[k - 1], rest.rows[k - 1], rest.postings[k - 1]);
          }
        }
      } else {
        TermedLotsCons(lots);
        assert TermedLots(lots) == TermedLots(lots[1..]);
      }
    }
  }

  /** How a cost-centre group appears: its balance, the rate applied to it alone with
      exact rounding, and a posting tagged with the centre on both lines. */
  predicate CentreRecorded(end: Date, a: Account, rate: int, g: Group, row: Row, p: Posting)
  {
    && row.CentreRow?
    && row.centre == g.centre && row.before == g.balance && row.rule == Percent(rate)
    && IsRoundHalfAway(g.balance * rate, 100, row.amount)
    && row.after == g.balance - row.amount
    && Balanced(p, end) && On(p, a.number, a.contra)
    && p.credit.credit == row.amount
    && p.credit.centre == Some(g.centre) && p.debit.centre == Some(g.centre)
    && p.credit.lot == None && p.debit.lot == None
  }

  /** The row and the posting of one cost-centre group. */
  function CentreEntry(end: Date, a: Account, rate: int, g: Group): (rp: (Row, Posting))
    ensures CentreRecorded(end, a, rate, g, rp.0, rp.1)
  {
    var amount := DecliningAmount(g.balance, rate);
    var row := CentreRow(g.centre, g.balance, Percent(rate), amount, g.balance - amount);
    var p := Posting(
      Entry(end, a.number, 0, amount, Some(g.centre), None,
            DecliningMemo(rate, g.balance, g.balance - amount, Some(g.centre))),
      Entry(end, a.contra, amount, 0, Some(g.centre), None,
            DecliningContraMemo(a.number, a.name, Some(g.centre))));
    (row, p)
  }

  /** Rows and postings of a split declining-balance account, one per group. */
  function CentresBlock(end: Date, a: Account, rate: int, groups: seq<Group>): (b: Block)
    ensures |b.rows| == |b.postings| == |groups|
  {
    if |groups| == 0 then Block([], [])
    else
      var rp := CentreEntry(end, a, rate, groups[0]);
      var rest := CentresBlock(end, a, rate, groups[1..]);
      Block([rp.0] + rest.rows, [rp.1] + rest.postings)
  }

  /** Row `k` and posting `k` of the split block record the `k`-th group. */
  lemma {:induction false} CentresBlockRecords(end: Date, a: Account, rate: int, groups: seq<Group>)
    ensures forall k :: 0 <= k < |groups| ==>
              CentreRecorded(end, a, rate, groups[k], CentresBlock(end, a, rate, groups).rows[k],
                             CentresBlock(end, a, rate, groups).postings[k])
  {
    if |groups| > 0 {
      CentresBlockRecords(end, a, rate, groups[1..]);
      var b, rest := CentresBlock(end, a, rate, groups), CentresBlock(end, a, rate, groups[1..]);
      forall k | 0 <= k < |groups|
        ensures CentreRecorded(end, a, rate, groups[k], b.rows[k], b.postings[k])
      {
        if k > 0 {
          assert groups[k] == groups[1..][k - 1];
          assert b.rows[k] == rest.rows[k - 1] && b.postings[k] == rest.postings[k - 1];
        }
      }
    }
  }

  /** Rows framed by a first and a last row keep their order, one place later. */
  lemma Framed(first: Row, rows: seq<Row>, last: Row)
    ensures |[first] + rows + [last]| == |rows| + 2
    ensures forall k :: 0 <= k < |rows| ==> ([first] + rows + [last])[k + 1] == rows[k]
  {
    var all := [first] + rows + [last];
    forall k | 0 <= k < |rows| ensures all[k + 1] == rows[k] {
      assert all == [first] + (rows + [last]);
    }
  }

  /** A declining-balance account: a summary row for the whole balance, then either
      one posting for the whole balance, or (split) a row and a posting per cost
      centre and none for the whole balance; a blank row closes the block. */
  function DecliningBlock(end: Date, a: Account): (b: Block)
    requires a.kind.DecliningBalance?
    ensures |b.rows| >= 2 && b.rows[|b.rows| - 1] == Blank
    ensures b.rows[0].AccountRow? && b.rows[0].before == a.balance
    ensures b.rows[0].number == a.number && b.rows[0].name == a.name
    ensures b.rows[0].rule == Percent(a.kind.rate)
    ensures IsRoundHalfAway(a.balance * a.kind.rate, 100, b.rows[0].amount)
    ensures b.rows[0].after == a.balance - b.rows[0].amount
    ensures !a.kind.split ==>
              && |b.rows| == 2 && |b.postings| == 1
              && Balanced(b.postings[0], end) && On(b.postings[0], a.number, a.contra)
              && b.postings[0].credit.credit == b.rows[0].amount
              && b.postings[0].credit.centre == None && b.postings[0].debit.centre == None
              && b.postings[0].credit.lot == None && b.postings[0].debit.lot == None
    ensures a.kind.split ==>
              var groups := CentreGroups(a.kind.lines, end);
              && |b.rows| == |groups| + 2 && |b.postings| == |groups|
              && forall k :: 0 <= k < |groups| ==>
                   CentreRecorded(end, a, a.kind.rate, groups[k], b.rows[k + 1], b.postings[k])
  {
    var rate := a.kind.rate;
    var amount := DecliningAmount(a.balance, rate);
    var head := AccountRow(a.number, a.name, a.balance, Percent(rate), amount, a.balance - amount);
    if a.kind.split then
      var groups := CentreGroups(a.kind.lines, end);
      var c := CentresBlock(end, a, rate, groups);
      CentresBlockRecords(end, a, rate, groups);
      var rows := [head] + c.rows + [Blank];
      Framed(head, c.rows, Blank);
      Block(rows, c.postings)
    else
      var p := Posting(
        Entry(end, a.number, 0, amount, None, None, DecliningMemo(rate, a.balance, a.balance - amount, None)),
        Entry(end, a.contra, amount, 0, None, None, DecliningContraMemo(a.number, a.name, None)));
      Block([head, Blank], [p])
  }

  /** A straight-line account: a header row, the lots' rows, a blank row. */
  function StraightLineBlock(end: Date, a: Account): (b: Block)
    requires a.kind.StraightLine?
    ensures |b.rows| == |TermedLots(a.kind.lots)| + 2 && |b.postings| == |TermedLots(a.kind.lots)|
    ensures b.rows[0] == HeaderRow(a.number, a.name) && b.rows[|b.rows| - 1] == Blank
    ensures forall k :: 0 <= k < |b.postings| ==>
              LotRecorded(end, a, TermedLots(a.kind.lots)[k], b.rows[k + 1], b.postings[k])
  {
    var lots := LotsBlock(end, a, a.kind.lots);
    LotsBlockRecords(end, a, a.kind.lots);
    var rows := [HeaderRow(a.number, a.name)] + lots.rows + [Blank];
    Framed(HeaderRow(a.number, a.name), lots.rows, Blank);
    Block(rows, lots.postings)
  }

  /** The block of a contributing account: every posting is balanced, dated at the
      period end, and moves value from the account to its contra-account. The
      account's kind picks the rule. */
  function AccountBlock(end: Date, a: Account): (b: Block)
    requires Contributes(a)
    ensures a.kind.DecliningBalance? ==> b == DecliningBlock(end, a)
    ensures a.kind.StraightLine? ==> b == StraightLineBlock(end, a)
    ensures |b.rows| >= 2 && b.rows[|b.rows| - 1] == Blank
    ensures forall k :: 0 <= k < |b.postings| ==>
              Balanced(b.postings[k], end) && On(b.postings[k], a.number, a.contra)
  {
    if a.kind.DecliningBalance? then DecliningBlock(end, a) else StraightLineBlock(end, a)
  }

  /** The posting moves value from some contributing account to that account's
      contra-account. */
  predicate FromContributing(p: Posting, accounts: seq<Account>)
  {
    exists i :: 0 <= i < |accounts| && Contributes(accounts[i])
             && On(p, accounts[i].number, accounts[i].contra)
  }

  lemma FromContributingShift(p: Posting, accounts: seq<Account>)
    requires |accounts| > 0 && FromContributing(p, accounts[1..])
    ensures FromContributing(p, accounts)
  {
    var i :| 0 <= i < |accounts[1..]| && Contributes(accounts[1..][i])
             && On(p, accounts[1..][i].number, accounts[1..][i].contra);
    assert accounts[i + 1] == accounts[1..][i];
  }

  /** `n` is the number of the first misconfigured account in chart order. */
  predicate FirstMisconfigured(accounts: seq<Account>, n: int)
  {
    exists i :: 0 <= i < |accounts| && Misconfigured(accounts[i]) && accounts[i].number == n
             && forall j :: 0 <= j < i ==> !Misconfigured(accounts[j])
  }

  predicate AnyMisconfigured(accounts: seq<Account>)
  {
    exists i :: 0 <= i < |accounts| && Misconfigured(accounts[i])
  }

  /** An account that is not misconfigured passes the search on to the rest. */
  lemma MisconfiguredShift(accounts: seq<Account>)
    requires |accounts| > 0 && !Misconfigured(accounts[0])
    ensures AnyMisconfigured(accounts) <==> AnyMisconfigured(accounts[1..])
    ensures forall n :: FirstMisconfigured(accounts[1..], n) ==> FirstMisconfigured(accounts, n)
  {
    if AnyMisconfigured(accounts) {
      var i :| 0 <= i < |accounts| && Misconfigured(accounts[i]);
      assert i > 0 && accounts[1..][i - 1] == accounts[i];
    }
    if AnyMisconfigured(accounts[1..]) {
      var i :| 0 <= i < |accounts[1..]| && Misconfigured(accounts[1..][i]);
      assert accounts[i + 1] == accounts[1..][i];
    }
    forall n | FirstMisconfigured(accounts[1..], n)
      ensures FirstMisconfigured(accounts, n)
    {
      var i :| 0 <= i < |accounts[1..]| && Misconfigured(accounts[1..][i])
               && accounts[1..][i].number == n
               && forall j :: 0 <= j < i ==> !Misconfigured(accounts[1..][j]);
      assert accounts[i + 1] == accounts[1..][i];
      assert forall j :: 0 < j < i + 1 ==> accounts[j] == accounts[1..][j - 1];
    }
  }

  /** Postings from contributing accounts of the rest come from contributing accounts. */
  lemma PostingsShift(ps: seq<Posting>, accounts: seq<Account>)
    requires |accounts| > 0
    requires forall k :: 0 <= k < |ps| ==> FromContributing(ps[k], accounts[1..])
    ensures forall k :: 0 <= k < |ps| ==> FromContributing(ps[k], accounts)
  {
    forall k | 0 <= k < |ps| ensures FromContributing(ps[k], accounts) {
      FromContributingShift(ps[k], accounts);
    }
  }

  /** The blocks of the given contributing accounts, one after another: what a run
      without a misconfigured account proposes. */
  function Blocks(end: Date, cs: seq<Account>): Block
    requires forall k :: 0 <= k < |cs| ==> Contributes(cs[k])
  {
    if |cs| == 0 then Block([], [])
    else
      var head, tail := AccountBlock(end, cs[0]), Blocks(end, cs[1..]);
      Block(head.rows + tail.rows, head.postings + tail.postings)
  }

  /** The run over the accounts in chart order, before flattening. */
  function Propose(end: Date, accounts: seq<Account>): (r: Result<Block, int>)
    ensures r.Failure? <==> AnyMisconfigured(accounts)
    ensures r.Success? ==> r.value == Blocks(end, ContributingOnly(accounts))
    ensures r.Failure? ==> FirstMisconfigured(accounts, r.error)
    ensures r.Success? ==> forall k :: 0 <= k < |r.value.postings| ==> Balanced(r.value.postings[k], end)
    ensures r.Success? ==> forall k :: 0 <= k < |r.value.postings| ==>
              FromContributing(r.value.postings[k], accounts)
  {
    if |accounts| == 0 then Success(Block([], []))
    else
      var a := accounts[0];
      if !Contributes(a) then
        var r := Propose(end, accounts[1..]);
        MisconfiguredShift(accounts);
        assert ContributingOnly(accounts) == ContributingOnly(accounts[1..]);
        if r.Success? then PostingsShift(r.value.postings, accounts); r else r
      else if !a.contraValid then
        assert FirstMisconfigured(accounts, a.number) by {
          assert Misconfigured(accounts[0]);
        }
        Failure(a.number)
      else
        var head := AccountBlock(end, a);
        var r := Propose(end, accounts[1..]);
        MisconfiguredShift(accounts);
        match r
        case Failure(n) => Failure(n)
        case Success(tail) =>
          assert ContributingOnly(accounts)[0] == a;
          assert ContributingOnly(accounts)[1..] == ContributingOnly(accounts[1..]);
          PostingsShift(tail.postings, accounts);
          var ps := head.postings + tail.postings;
          assert forall k :: 0 <= k < |ps| ==> FromContributing(ps[k], accounts) by {
            forall k | 0 <= k < |ps|
              ensures FromContributing(ps[k], accounts)
            {
              if k < |head.postings| {
                assert On(ps[k], accounts[0].number, accounts[0].contra);
              } else {
                assert ps[k] == tail.postings[k - |head.postings|];
              }
            }
          }
          Success(Block(head.rows + tail.rows, ps))
  }

  /** `sumupoistaja` up to the point where the proposal is shown: either the number
      of the first misconfigured account, with nothing proposed, or the statement
      and the flat list of proposed lines, which pair up into balanced credit/debit
      pairs dated at the period end and therefore balance as a whole. */
  function Run(end: Date, accounts: seq<Account>): (r: Result<Proposal, int>)
    ensures r.Failure? <==> AnyMisconfigured(accounts)
    ensures r.Failure? ==> FirstMisconfigured(accounts, r.error)
    ensures r.Success? ==> var b := Blocks(end, ContributingOnly(accounts));
              r.value.rows == b.rows && r.value.entries == Flatten(b.postings)
    ensures r.Success? ==> PairedAt(r.value.entries, end)
    ensures r.Success? ==> TotalDebit(r.value.entries) == TotalCredit(r.value.entries)
    ensures r.Success? ==> forall k: nat :: k < |r.value.entries| / 2 ==>
              FromContributing(Posting(CreditLeg(r.value.entries, k), DebitLeg(r.value.entries, k)), accounts)
  {
    match Propose(end, accounts)
    case Failure(n) => Failure(n)
    case Success(b) =>
      var es := Flatten(b.postings);
      FlattenPaired(b.postings, end);
      PairedBalances(es, end);
      assert forall k: nat :: k < |es| / 2 ==>
               FromContributing(Posting(CreditLeg(es, k), DebitLeg(es, k)), accounts) by {
        forall k: nat | k < |es| / 2
          ensures FromContributing(Posting(CreditLeg(es, k), DebitLeg(es, k)), accounts)
        {
          FlattenLegs(b.postings, k);
          assert Posting(CreditLeg(es, k), DebitLeg(es, k)) == b.postings[k];
        }
      }
      Success(Proposal(b.rows, es))
  }

  /** The accounts that take part, in chart order. */
  function ContributingOnly(accounts: seq<Account>): (r: seq<Account>)
    ensures forall a :: a in r <==> a in accounts && Contributes(a)
    ensures forall k :: 0 <= k < |r| ==> Contributes(r[k])
  {
    if |accounts| == 0 then []
    else (if Contributes(accounts[0]) then [accounts[0]] else []) + ContributingOnly(accounts[1..])
  }

  /** The contributing accounts of a concatenation are those of each piece, in
      chart order. */
  lemma {:induction false} ContributingOnlyConcat(a: seq<Account>, b: seq<Account>)
    ensures ContributingOnly(a + b) == ContributingOnly(a) + ContributingOnly(b)
  {
    if |a| == 0 {
      assert a + b == b;
    } else {
      assert (a + b)[1..] == a[1..] + b;
      ContributingOnlyConcat(a[1..], b);
    }
  }

  /** A contributing account is kept as many times as it occurs; others not at all. */
  lemma {:induction false} ContributingOnlyCount(accounts: seq<Account>)
    ensures forall a :: multiset(ContributingOnly(accounts))[a]
                     == if Contributes(a) then multiset(accounts)[a] else 0
  {
    if |accounts| > 0 {
      ContributingOnlyCount(accounts[1..]);
      assert accounts == [accounts[0]] + accounts[1..];
    }
  }

  /** Accounts that are not depreciable or have a zero balance are skipped: the run
      over the contributing accounts alone has exactly the same outcome. */
  lemma {:induction false} SkippedAccountsIgnored(end: Date, accounts: seq<Account>)
    ensures Run(end, ContributingOnly(accounts)) == Run(end, accounts)
  {
    ProposeSkips(end, accounts);
  }

  lemma {:induction false} ProposeSkips(end: Date, accounts: seq<Account>)
    ensures Propose(end, ContributingOnly(accounts)) == Propose(end, accounts)
  {
    var cs := ContributingOnly(accounts);
    if |accounts| > 0 {
      ProposeSkips(end, accounts[1..]);
      var a := accounts[0];
      if Contributes(a) {
        assert cs[0] == a && cs[1..] == ContributingOnly(accounts[1..]);
      } else {
        assert cs == ContributingOnly(accounts[1..]);
      }
    }
  }

  /** Once an account aborts the run, no account after it can change the outcome. */
  lemma {:induction false} AbortIsFinal(end: Date, accounts: seq<Account>, more: seq<Account>)
    requires Run(end, accounts).Failure?
    ensures Run(end, accounts + more) == Run(end, accounts)
  {
    ProposeAbortIsFinal(end, accounts, more);
  }

  lemma {:induction false} ProposeAbortIsFinal(end: Date, accounts: seq<Account>, more: seq<Account>)
    requires Propose(end, accounts).Failure?
    ensures Propose(end, accounts + more) == Propose(end, accounts)
  {
    var all := accounts + more;
    assert all[0] == accounts[0];
    if !(Contributes(accounts[0]) && !accounts[0].contraValid) {
      assert all[1..] == accounts[1..] + more;
      ProposeAbortIsFinal(end, accounts[1..], more);
    }
  }

  /** Cost centres are rounded one by one and nothing reconciles them with the
      account: at 50 %, two centres of 1 cent each are written down 1 cent each,
      2 cents in all, while the account's whole 2-cent balance rounds to 1 cent. */
  lemma SplitRoundingDrift(end: Date, a: Account)
    ensures DecliningAmount(2, 50) == 1
    ensures var b := CentresBlock(end, a, 50, [Group(1, 1), Group(2, 1)]);
            b.postings[0].credit.credit + b.postings[1].credit.credit == 2
  {
    var gs := [Group(1, 1), Group(2, 1)];
    var b := CentresBlock(end, a, 50, gs);
    CentresBlockRecords(end, a, 50, gs);
    assert CentreRecorded(end, a, 50, gs[0], b.rows[0], b.postings[0]);
    assert CentreRecorded(end, a, 50, gs[1], b.rows[1], b.postings[1]);
    RoundHalfAwayUnique(50, 100, b.rows[0].amount);
    RoundHalfAwayUnique(50, 100, b.rows[1].amount);
    assert RoundHalfAway(50, 100) == 1 && RoundHalfAway(100, 100) == 1;
  }
}

=== FILE: ledger.dfy ===
/** Ledger lines and the cost-centre grouping of an account's lines: the model of the
    query `SELECT kohdennus, SUM(debetsnt), SUM(kreditsnt) ... WHERE tili = ? AND
    pvm < ? GROUP BY kohdennus ORDER BY kohdennus`. Amounts are in cents. */
module Ledger {

  /** A calendar date (`QDate`); dates compare as their ISO `yyyy-MM-dd` text does. */
  datatype Date = Date(year: int, month: int, day: int)

  predicate Before(a: Date, b: Date)
  {
    || a.year < b.year
    || (a.year == b.year && a.month < b.month)
    || (a.year == b.year && a.month == b.month && a.day < b.day)
  }

  /** `year * 12 + month`, the month count the straight-line rule works with. */
  function MonthIndex(d: Date): int
  {
    d.year * 12 + d.month
  }

  /** One posting line on an account: date, cost centre (`kohdennus`), debit and credit cents. */
  datatype Line = Line(date: Date, centre: int, debit: int, credit: int)

  function Debits(ls: seq<Line>): int
  {
    if |ls| == 0 then 0 else ls[0].debit + Debits(ls[1..])
  }

  function Credits(ls: seq<Line>): int
  {
    if |ls| == 0 then 0 else ls[0].credit + Credits(ls[1..])
  }

  /** Signed balance: total debits minus total credits. */
  function Balance(ls: seq<Line>): int
  {
    Debits(ls) - Credits(ls)
  }

  lemma BalanceCons(x: Line, rest: seq<Line>)
    ensures Balance([x] + rest) == x.debit - x.credit + Balance(rest)
  {
    assert ([x] + rest)[1..] == rest;
  }

  /** The lines dated strictly before `end`, in their original order. */
  function DatedBefore(ls: seq<Line>, end: Date): (r: seq<Line>)
    ensures forall l :: l in r <==> l in ls && Before(l.date, end)
  {
    if |ls| == 0 then []
    else (if Before(ls[0].date, end) then [ls[0]] else []) + DatedBefore(ls[1..], end)
  }

  /** The lines booked to cost centre `c`, in their original order. */
  function OfCentre(ls: seq<Line>, c: int): (r: seq<Line>)
    ensures forall l :: l in r <==> l in ls && l.centre == c
  {
    if |ls| == 0 then []
    else (if ls[0].centre == c then [ls[0]] else []) + OfCentre(ls[1..], c)
  }

  /** Both filters work piece by piece: the lines of a concatenation are kept in
      order, and nothing is dropped or merged across the pieces. */
  lemma {:induction false} DatedBeforeConcat(a: seq<Line>, b: seq<Line>, end: Date)
    ensures DatedBefore(a + b, end) == DatedBefore(a, end) + DatedBefore(b, end)
  {
    if |a| == 0 {
      assert a + b == b;
    } else {
      assert (a + b)[1..] == a[1..] + b;
      DatedBeforeConcat(a[1..], b, end);
    }
  }

  lemma {:induction false} OfCentreConcat(a: seq<Line>, b: seq<Line>, c: int)
    ensures OfCentre(a + b, c) == OfCentre(a, c) + OfCentre(b, c)
  {
    if |a| == 0 {
      assert a + b == b;
    } else {
      assert (a + b)[1..] == a[1..] + b;
      OfCentreConcat(a[1..], b, c);
    }
  }

  /** A line dated before `end` is kept as many times as it occurs, so two identical
      lines are both summed; a later line is not kept at all. */
  lemma {:induction false} DatedBeforeCount(ls: seq<Line>, end: Date)
    ensures forall l :: multiset(DatedBefore(ls, end))[l] == if Before(l.date, end) then multiset(ls)[l] else 0
  {
    if |ls| > 0 {
      DatedBeforeCount(ls[1..], end);
      assert ls == [ls[0]] + ls[1..];
    }
  }

  lemma {:induction false} OfCentreCount(ls: seq<Line>, c: int)
    ensures forall l :: multiset(OfCentre(ls, c))[l] == if l.centre == c then multiset(ls)[l] else 0
  {
    if |ls| > 0 {
      OfCentreCount(ls[1..], c);
      assert ls == [ls[0]] + ls[1..];
    }
  }

  /** `SUM(debetsnt) - SUM(kreditsnt)` over the lines of one cost centre. */
  function CentreBalance(ls: seq<Line>, c: int): int
  {
    Balance(OfCentre(ls, c))
  }

  lemma CentreBalanceCons(x: Line, rest: seq<Line>, c: int)
    ensures CentreBalance([x] + rest, c)
         == (if x.centre == c then x.debit - x.credit else 0) + CentreBalance(rest, c)
  {
    var ls := [x] + rest;
    assert ls[0] == x && ls[1..] == rest;
    if x.centre == c {
      BalanceCons(x, OfCentre(rest, c));
    } else {
      assert OfCentre(ls, c) == OfCentre(rest, c);
    }
  }

  predicate StrictlyIncreasing(s: seq<int>)
  {
    forall i, j :: 0 <= i < j < |s| ==> s[i] < s[j]
  }

  /** Inserts `x` into an increasing sequence unless it is already there. */
  function Insert(s: seq<int>, x: int): (r: seq<int>)
    requires StrictlyIncreasing(s)
    ensures StrictlyIncreasing(r)
    ensures forall y :: y in r <==> y in s || y == x
  {
    if |s| == 0 then [x]
    else if x < s[0] then
      assert forall i :: 0 <= i < |s| ==> x < s[i];
      [x] + s
    else if x == s[0] then s
    else
      var tail := Insert(s[1..], x);
      assert forall i :: 0 <= i < |tail| ==> s[0] < tail[i] by {
        forall i | 0 <= i < |tail| ensures s[0] < tail[i] {
          assert tail[i] in tail;
          if tail[i] != x {
            var j :| 0 <= j < |s[1..]| && s[1..][j] == tail[i];
            assert s[j + 1] == tail[i];
          }
        }
      }
      var r := [s[0]] + tail;
      assert forall i :: 0 < i < |r| ==> r[i] == tail[i - 1];
      r
  }

  /** The set of cost centres that occur on the lines. */
  function CentreSet(ls: seq<Line>): set<int>
  {
    set l | l in ls :: l.centre
  }

  /** The distinct cost centres of the lines, in increasing order (GROUP BY, ORDER BY). */
  function Centres(ls: seq<Line>): (r: seq<int>)
    ensures StrictlyIncreasing(r)
    ensures forall c :: c in r <==> c in CentreSet(ls)
  {
    if |ls| == 0 then []
    else
      var rest := Centres(ls[1..]);
      assert CentreSet(ls) == CentreSet(ls[1..]) + {ls[0].centre} by {
        assert forall l :: l in ls <==> l == ls[0] || l in ls[1..];
      }
      Insert(rest, ls[0].centre)
  }

  /** One row of the grouping query: a cost centre and its balance. */
  datatype Group = Group(centre: int, balance: int)

  function GroupsOf(cs: seq<int>, ls: seq<Line>): (gs: seq<Group>)
    ensures |gs| == |cs|
    ensures forall k :: 0 <= k < |cs| ==> gs[k].centre == cs[k]
    ensures forall k :: 0 <= k < |cs| ==> gs[k].balance == CentreBalance(ls, cs[k])
  {
    if |cs| == 0 then [] else [Group(cs[0], CentreBalance(ls, cs[0]))] + GroupsOf(cs[1..], ls)
  }

  function GroupTotal(gs: seq<Group>): int
  {
    if |gs| == 0 then 0 else gs[0].balance + GroupTotal(gs[1..])
  }

  /** The rows of the grouping query for the account whose lines are `ls`: exactly
      one group per cost centre that has a line dated before `end`, in increasing
      centre order, each carrying the balance of that centre's lines before `end`. */
  function CentreGroups(ls: seq<Line>, end: Date): (gs: seq<Group>)
    ensures forall i, j :: 0 <= i < j < |gs| ==> gs[i].centre < gs[j].centre
    ensures forall c :: (c in CentreSet(DatedBefore(ls, end))) <==> (exists k :: 0 <= k < |gs| && gs[k].centre == c)
    ensures forall k :: 0 <= k < |gs| ==>
              gs[k].balance == Balance(OfCentre(DatedBefore(ls, end), gs[k].centre))
  {
    var before := DatedBefore(ls, end);
    var cs := Centres(before);
    var gs := GroupsOf(cs, before);
    assert forall c :: c in cs <==> exists k :: 0 <= k < |gs| && gs[k].centre == c by {
      forall c | c in cs
        ensures exists k :: 0 <= k < |gs| && gs[k].centre == c
      {
        var k :| 0 <= k < |cs| && cs[k] == c;
        assert gs[k].centre == c;
      }
    }
    gs
  }

  /** The sum of the centre balances of `cs`, one term per listed centre. */
  function CentresTotal(cs: seq<int>, ls: seq<Line>): int
  {
    if |cs| == 0 then 0 else CentreBalance(ls, cs[0]) + CentresTotal(cs[1..], ls)
  }

  lemma {:induction false} GroupsOfTotal(cs: seq<int>, ls: seq<Line>)
    ensures GroupTotal(GroupsOf(cs, ls)) == CentresTotal(cs, ls)
  {
    if |cs| > 0 {
      assert GroupsOf(cs, ls)[1..] == GroupsOf(cs[1..], ls);
      GroupsOfTotal(cs[1..], ls);
    }
  }

  lemma {:induction false} CentresTotalNoLines(cs: seq<int>)
    ensures CentresTotal(cs, []) == 0
  {
    if |cs| > 0 {
      CentresTotalNoLines(cs[1..]);
    }
  }

  /** Adding one line in front changes the total by that line's balance when its
      centre is one of the (distinct) centres, and not at all otherwise. */
  lemma {:induction false} CentresTotalCons(cs: seq<int>, x: Line, rest: seq<Line>)
    requires StrictlyIncreasing(cs)
    ensures CentresTotal(cs, [x] + rest)
         == CentresTotal(cs, rest) + (if x.centre in cs then x.debit - x.credit else 0)
  {
    if |cs| > 0 {
      assert StrictlyIncreasing(cs[1..]);
      CentresTotalCons(cs[1..], x, rest);
      CentreBalanceCons(x, rest, cs[0]);
      if x.centre == cs[0] {
        assert x.centre !in cs[1..];
      } else {
        assert (x.centre in cs) == (x.centre in cs[1..]);
      }
    }
  }

  /** Summing the balances of a list of distinct centres that covers every line's
      centre gives back the balance of all the lines. */
  lemma {:induction false} CentresTotalPartition(cs: seq<int>, ls: seq<Line>)
    requires StrictlyIncreasing(cs)
    requires forall l :: l in ls ==> l.centre in cs
    ensures CentresTotal(cs, ls) == Balance(ls)
  {
    if |ls| == 0 {
      CentresTotalNoLines(cs);
    } else {
      assert ls == [ls[0]] + ls[1..];
      CentresTotalCons(cs, ls[0], ls[1..]);
      CentresTotalPartition(cs, ls[1..]);
      BalanceCons(ls[0], ls[1..]);
    }
  }

  /** Nothing is lost or counted twice by the grouping: the cost-centre balances add up
      to the balance of the account's lines dated before `end`. */
  lemma CentreGroupsPartition(ls: seq<Line>, end: Date)
    ensures GroupTotal(CentreGroups(ls, end)) == Balance(DatedBefore(ls, end))
  {
    var before := DatedBefore(ls, end);
    var cs := Centres(before);
    forall l | l in before
      ensures l.centre in cs
    {
      assert l.centre in CentreSet(before);
    }
    CentresTotalPartition(cs, before);
    GroupsOfTotal(cs, before);
  }
}

=== FILE: pending.dfy ===
/** `Poistaja::onkoPoistoja`: is there anything left to depreciate? The query sums
    the debits and the credits of every line on an account of a depreciable type
    (`APM` declining balance, `APT` straight line) dated on or before the period end. */
module Pending {
  import opened Arith
  import opened Ledger

  /** A posted line joined with its account's type code (`tili.tyyppi`). */
  datatype TypedLine = TypedLine(accountType: string, date: Date, debit: int, credit: int)

  /** The query's `WHERE` clause. */
  predicate Counted(l: TypedLine, end: Date)
  {
    (l.accountType == "APM" || l.accountType == "APT") && !Before(end, l.date)
  }

  /** The lines the query reads, in their original order. */
  function Selected(ls: seq<TypedLine>, end: Date): (r: seq<TypedLine>)
    ensures forall l :: l in r <==> l in ls && Counted(l, end)
  {
    if |ls| == 0 then []
    else (if Counted(ls[0], end) then [ls[0]] else []) + Selected(ls[1..], end)
  }

  /** The query reads the lines of a concatenation piece by piece: nothing is
      reordered, dropped or merged across the pieces. */
  lemma {:induction false} SelectedConcat(a: seq<TypedLine>, b: seq<TypedLine>, end: Date)
    ensures Selected(a + b, end) == Selected(a, end) + Selected(b, end)
  {
    if |a| == 0 {
      assert a + b == b;
    } else {
      assert (a + b)[1..] == a[1..] + b;
      SelectedConcat(a[1..], b, end);
    }
  }

  /** Every counted line is read as many times as it occurs, so identical lines
      are summed once each; uncounted lines are not read at all. */
  lemma {:induction false} SelectedCount(ls: seq<TypedLine>, end: Date)
    ensures forall l :: multiset(Selected(ls, end))[l] == if Counted(l, end) then multiset(ls)[l] else 0
  {
    if |ls| > 0 {
      SelectedCount(ls[1..], end);
      assert ls == [ls[0]] + ls[1..];
    }
  }

  lemma SelectedSnoc(ls: seq<TypedLine>, x: TypedLine, end: Date)
    ensures Selected(ls + [x], end) == Selected(ls, end) + (if Counted(x, end) then [x] else [])
  {
    SelectedConcat(ls, [x], end);
    assert [x][1..] == [];
  }

  function DebitSum(ls: seq<TypedLine>): int
  {
    if |ls| == 0 then 0 else ls[0].debit + DebitSum(ls[1..])
  }

  function CreditSum(ls: seq<TypedLine>): int
  {
    if |ls| == 0 then 0 else ls[0].credit + CreditSum(ls[1..])
  }

  lemma {:induction false} SumsSnoc(ls: seq<TypedLine>, x: TypedLine)
    ensures DebitSum(ls + [x]) == DebitSum(ls) + x.debit
    ensures CreditSum(ls + [x]) == CreditSum(ls) + x.credit
  {
    if |ls| == 0 {
      assert (ls + [x])[1..] == [];
    } else {
      assert (ls + [x])[1..] == ls[1..] + [x];
      SumsSnoc(ls[1..], x);
    }
  }

  /** Sum of the signed amounts `debit - credit`, line by line. */
  function NetSum(ls: seq<TypedLine>): int
  {
    if |ls| == 0 then 0 else (ls[0].debit - ls[0].credit) + NetSum(ls[1..])
  }

  /** `onkoPoistoja`, one pass over the lines. `queryRow` is whether the query
      produced a row; without one the answer is false. With one, the answer is
      whether the selected lines' debits and credits differ once each sum has been
      narrowed to a 32-bit `int` (`QVariant::toInt`). */
  method HasPendingDepreciation(end: Date, queryRow: bool, ls: seq<TypedLine>) returns (pending: bool)
    ensures pending <==> queryRow && Wrap32(DebitSum(Selected(ls, end))) != Wrap32(CreditSum(Selected(ls, end)))
  {
    if !queryRow {
      return false;
    }
    var db, kr := 0, 0;
    ghost var sel: seq<TypedLine> := [];
    var i := 0;
    while i < |ls|
      invariant 0 <= i <= |ls|
      invariant sel == Selected(ls[..i], end)
      invariant db == DebitSum(sel) && kr == CreditSum(sel)
    {
      assert ls[..i + 1] == ls[..i] + [ls[i]];
      SelectedSnoc(ls[..i], ls[i], end);
      if Counted(ls[i], end) {
        SumsSnoc(sel, ls[i]);
        db := db + ls[i].debit;
        kr := kr + ls[i].credit;
        sel := sel + [ls[i]];
      } else {
        assert sel + [] == sel;
      }
      i := i + 1;
    }
    assert ls[..|ls|] == ls;
    pending := Wrap32(db) != Wrap32(kr);
  }

  /** Debits and credits differ exactly when the signed balance of the lines is not
      zero: pending depreciation means the depreciable accounts together do not
      stand at zero. */
  lemma {:induction false} UnbalancedIffNonZeroNet(ls: seq<TypedLine>)
    ensures DebitSum(ls) - CreditSum(ls) == NetSum(ls)
    ensures DebitSum(ls) != CreditSum(ls) <==> NetSum(ls) != 0
  {
    if |ls| > 0 {
      UnbalancedIffNonZeroNet(ls[1..]);
    }
  }

  /** A line dated after the period end, or on an account of another type, never
      changes what the query reads, wherever it stands among the lines. */
  lemma IgnoredLinesIrrelevant(before: seq<TypedLine>, l: TypedLine, after: seq<TypedLine>, end: Date)
    requires !Counted(l, end)
    ensures Selected(before + [l] + after, end) == Selected(before + after, end)
  {
    SelectedConcat(before + [l], after, end);
    SelectedSnoc(before, l, end);
    SelectedConcat(before, after, end);
  }

  /** After the narrowing, the query reports pending depreciation exactly when the
      net balance of the selected lines is not a whole number of turns of 2^32
      cents: any imbalance that is a multiple of 2^32 is hidden. */
  lemma NarrowedImbalance(ls: seq<TypedLine>, end: Date)
    ensures var sel := Selected(ls, end);
            Wrap32(DebitSum(sel)) != Wrap32(CreditSum(sel)) <==> NetSum(sel) % TwoTo32 != 0
  {
    var sel := Selected(ls, end);
    UnbalancedIffNonZeroNet(sel);
    Wrap32Same(DebitSum(sel), CreditSum(sel));
  }

  /** The narrowing hides an imbalance of exactly 2^32 cents: one depreciable line
      debited 42 949 672.96 euros and never credited reads as balanced. */
  lemma NarrowingMasksImbalance(end: Date)
    ensures var ls := [TypedLine("APM", end, TwoTo32, 0)];
            && DebitSum(Selected(ls, end)) != CreditSum(Selected(ls, end))
            && Wrap32(DebitSum(Selected(ls, end))) == Wrap32(CreditSum(Selected(ls, end)))
  {
    var ls := [TypedLine("APM", end, TwoTo32, 0)];
    assert ls[1..] == [];
    assert Selected(ls, end) == ls;
  }
}

=== FILE: postings.dfy ===
/** Proposed voucher lines (`VientiRivi`, collected in `EhdotusModel`) and the
    credit/debit pairs the depreciation run builds them from. */
module Postings {
  import opened Results
  import opened Ledger

  /** What a line's description (`selite`) is made of. The Finnish wording and the
      locale formatting of euros are presentation and are not modelled. */
  datatype Memo =
    | DecliningMemo(rate: int, before: int, after: int, centre: Option<int>)
    | DecliningContraMemo(number: int, name: string, centre: Option<int>)
    | LotMemo(description: string)
    | LotContraMemo(number: int, name: string, description: string)

  /** One proposed line: date, account number, debit and credit cents (an unset side
      is 0), cost centre and lot (`eraId`) when set, and its description. */
  datatype Entry = Entry(date: Date, account: int, debit: int, credit: int,
                         centre: Option<int>, lot: Option<int>, memo: Memo)

  /** A credit line followed by the debit line that offsets it. */
  datatype Posting = Posting(credit: Entry, debit: Entry)

  /** Both lines dated `end`, the first a pure credit, the second a pure debit of the
      same amount. */
  predicate Balanced(p: Posting, end: Date)
  {
    && p.credit.date == end && p.debit.date == end
    && p.credit.debit == 0 && p.debit.credit == 0
    && p.credit.credit == p.debit.debit
  }

  /** Credits the account numbered `source`, debits the account numbered `contra`. */
  predicate On(p: Posting, source: int, contra: int)
  {
    p.credit.account == source && p.debit.account == contra
  }

  /** The proposal's flat list of lines: each pair's credit line, then its debit line. */
  function Flatten(ps: seq<Posting>): (es: seq<Entry>)
    ensures |es| == 2 * |ps|
  {
    if |ps| == 0 then [] else [ps[0].credit, ps[0].debit] + Flatten(ps[1..])
  }

  function CreditLeg(es: seq<Entry>, k: nat): Entry
    requires 2 * k + 1 < |es|
  {
    es[2 * k]
  }

  function DebitLeg(es: seq<Entry>, k: nat): Entry
    requires 2 * k + 1 < |es|
  {
    es[2 * k + 1]
  }

  /** Every line at an even position is a credit immediately followed by a debit of the
      same amount, all dated `end`. */
  predicate PairedAt(es: seq<Entry>, end: Date)
  {
    && |es| % 2 == 0
    && forall k: nat :: k < |es| / 2 ==> Balanced(Posting(CreditLeg(es, k), DebitLeg(es, k)), end)
  }

  /** The k-th pair of the flat list is exactly the k-th posting. */
  lemma {:induction false} FlattenLegs(ps: seq<Posting>, k: nat)
    requires k < |ps|
    ensures CreditLeg(Flatten(ps), k) == ps[k].credit
    ensures DebitLeg(Flatten(ps), k) == ps[k].debit
  {
    var es := Flatten(ps);
    if k > 0 {
      FlattenLegs(ps[1..], k - 1);
      assert es[2..] == Flatten(ps[1..]);
    }
  }

  /** Flattening balanced postings yields a list whose even positions pair up. */
  lemma FlattenPaired(ps: seq<Posting>, end: Date)
    requires forall k :: 0 <= k < |ps| ==> Balanced(ps[k], end)
    ensures PairedAt(Flatten(ps), end)
  {
    var es := Flatten(ps);
    assert |es| / 2 == |ps| && |es| % 2 == 0;
    forall k: nat | k < |es| / 2
      ensures Balanced(Posting(CreditLeg(es, k), DebitLeg(es, k)), end)
    {
      FlattenLegs(ps, k);
      assert Balanced(ps[k], end);
    }
  }

  function TotalDebit(es: seq<Entry>): int
  {
    if |es| == 0 then 0 else es[0].debit + TotalDebit(es[1..])
  }

  function TotalCredit(es: seq<Entry>): int
  {
    if |es| == 0 then 0 else es[0].credit + TotalCredit(es[1..])
  }

  /** A paired list is balanced as a whole: total debits equal total credits. */
  lemma {:induction false} PairedBalances(es: seq<Entry>, end: Date)
    requires PairedAt(es, end)
    ensures TotalDebit(es) == TotalCredit(es)
  {
    if |es| > 0 {
      var rest := es[2..];
      assert Balanced(Posting(CreditLeg(es, 0), DebitLeg(es, 0)), end);
      forall k: nat | k < |rest| / 2
        ensures Balanced(Posting(CreditLeg(rest, k), DebitLeg(rest, k)), end)
      {
        assert CreditLeg(rest, k) == CreditLeg(es, k + 1);
        assert DebitLeg(rest, k) == DebitLeg(es, k + 1);
      }
      PairedBalances(rest, end);
      assert es[1..][1..] == rest;
    }
  }
}

=== FILE: report.dfy ===
/** The depreciation statement (`POISTOLASKELMA`) as structured rows. Column layout,
    bold face, links and euro formatting belong to the report writer and are not
    modelled; the rule column's text is. */
module Report {
  import opened Arith
  import opened Decimal
  import opened Results
  import opened Ledger

  /** The "Poistosääntö" column: a percentage, or a term in years and months. */
  datatype Rule = Percent(rate: int) | Term(years: int, months: int)

  datatype Row =
    | AccountRow(number: int, name: string, before: int, rule: Rule, amount: int, after: int)
    | CentreRow(centre: int, before: int, rule: Rule, amount: int, after: int)
    | HeaderRow(number: int, name: string)
    | LotRow(date: Date, description: string, before: int, rule: Rule, amount: int, after: int)
    | Blank

  /** A term of months split into whole years and the remaining months, with
      C++ truncating `/ 12` and `% 12`. */
  function TermRule(term: int): (r: Rule)
    ensures r.Term?
    ensures r.years * 12 + r.months == term
    ensures Abs(r.months) < 12
    ensures r.months == 0 || ((r.months > 0) <==> (term > 0))
    ensures r.months == 0 <==> term % 12 == 0
  {
    Term(TruncDiv(term, 12), TruncMod(term, 12))
  }

  /** The rule column's text: `"25 %"`, `"3 v"`, or `"2 v 6 kk"` when the months are
      not zero. */
  function RuleText(r: Rule): (text: string)
    ensures r.Percent? ==> |text| >= 2 && text[|text| - 2..] == " %"
                           && ParseInt(text[..|text| - 2]) == Some(r.rate)
    ensures r.Term? && r.months == 0 ==> |text| >= 2 && text[|text| - 2..] == " v"
                                         && ParseInt(text[..|text| - 2]) == Some(r.years)
    ensures r.Term? && r.months != 0 ==> |text| >= 3 && text[|text| - 3..] == " kk"
  {
    match r
    case Percent(rate) =>
      var n := IntToString(rate);
      ParseIntToString(rate);
      assert (n + " %")[..|n|] == n;
      n + " %"
    case Term(years, months) =>
      var y := IntToString(years);
      if months != 0 then y + " v " + IntToString(months) + " kk"
      else
        ParseIntToString(years);
        assert (y + " v")[..|y|] == y;
        y + " v"
  }

  /** A term label names the months exactly when the term is not whole years, and
      the numbers it shows recombine to the term. */
  lemma TermTextShape(term: int)
    ensures var r := TermRule(term);
            var text := RuleText(r);
            var y := IntToString(r.years);
            && text[..|y|] == y
            && (term % 12 == 0 ==> text == y + " v" && ParseInt(y) == Some(term / 12))
            && (term % 12 != 0 ==>
                  var m := IntToString(r.months);
                  && text == y + " v " + m + " kk"
                  && ParseInt(y) == Some(r.years)
                  && ParseInt(m) == Some(r.months)
                  && r.years * 12 + r.months == term)
  {
    var r := TermRule(term);
    ParseIntToString(r.years);
    ParseIntToString(r.months);
    if term % 12 == 0 {
      assert r.years == term / 12;
    }
  }
}

=== FILE: results.dfy ===
/** Option and Result values used for lookups that may miss and runs that may abort. */
module Results {

  datatype Option<+T> = None | Some(value: T)

  /** Either the computed value or the error that aborted the computation. */
  datatype Result<+T, +E> = Success(value: T) | Failure(error: E)
}
